=== FILE: README.md ===
# Listening-recap proxy: the data transformations

The service sits between a web front end and a music-streaming API. Most of
its endpoints just pass requests through. This project models in Dafny the
parts of `main.py` that compute something:

- **Top albums** (`get_top_albums`). One pass over a track listing skips
  tracks whose album id is absent or falsy. It groups the rest by album id in
  an insertion-ordered dict. Each album gets a count and its tracks'
  `{name, popularity}` in listing order. The albums are then sorted stably by
  count, descending, and the first ten are kept.
- **Top genres** (`get_top_genres`, nested in the callback). It counts every
  genre tag of every artist in an insertion-ordered dict. It then sorts the
  `(genre, count)` items stably by count, descending, and keeps the first ten
  as an ordered mapping.
- **Currently playing**. The status dispatch:
  - 204 means nothing is playing;
  - 401 means the token expired;
  - another 4xx/5xx or an undecodable body gives a 500;
  - anything else is reshaped into `{is_playing, track: {...}}`.
- **Recently played**. It maps 401 the same way and passes every other body
  through.
- **Token-response validation** at the start of the callback. Both tokens must
  be present and truthy, and `expires_in` defaults to 3600.

Modules, one concept each:

| file | module | what it holds |
|---|---|---|
| results.dfy | `Results` | `Option`; `Result` (a value, or an exception the code does not catch); `MapAll`, a list comprehension that can raise |
| json.dfy | `Json` | JSON values. A decoded object keeps its last binding of a repeated key. The key-path reader `Path`. `dict.get` with a default, `.get` on a non-dict (raises), iteration, truthiness and hashability as Python has them |
| ordered_groups.dfy | `OrderedGroups` | The "`if k not in d: d[k] = ...; d[k] += ...`" loop as `GroupBy`. Its reference is `IsGroupingOf`: one group per key, exactly that key's values, ordered by first occurrence |
| stable_sort.dfy | `StableSort` | `sort(key=..., reverse=True)` as a stable insertion sort, then a slice (`Top`). Its reference is `IsStableSortOf`, which is unique |
| top_albums.dfy | `TopAlbums` | `get_top_albums`, with the references `TracksWithId`, `AlbumIds` and `SeenBefore` |
| top_genres.dfy | `TopGenres` | `get_top_genres`, with the references `AllTags`, `TagCount`, `GenreSet` and `TagSeenBefore` |
| playback.dfy | `Reshaping` | The currently-playing field extraction, as written (`ReshapeAsWritten`) and corrected (`Reshape`), with the reference `Path`. The two differ only on bodies with a null `item`, `album`, `external_urls` or `artists` (`HasNullContainer`), and on those exactly when the corrected extraction answers |
| handlers.dfy | `Handlers` | Status dispatch of currently-playing and recently-played |
| tokens.dfy | `Tokens` | The callback's token check |

Python evaluation is modelled precisely:
- `x.get(k, d)` gives `d` only when `k` is absent. A key present with value
  `null` gives `None`.
- Calling `.get` on a non-dict raises.
- Iterating `None` or a number raises. Iterating a string yields its
  characters, and iterating a dict yields its keys.
- A list or dict used as a dict key raises.

Every such exception is one outcome, `Uncaught` in the pure functions and
`Unhandled` in a handler's answer: the framework turns it into a bare 500.

## Model

| member | source | states |
|---|---|---|
| TopAlbums.TopAlbumsOf | main.py:163-198 | The aggregation over a list of tracks keeps at most ten albums. What it keeps is stated by `TopAlbumsCountsTracks`, `TopAlbumsOrdered`, `TopAlbumsSize`, `TopAlbumsKeepsLargest` and `TopAlbumsReadsFirstTrack` |
| TopAlbums.ReadTrack | main.py:166-173 | A track is skipped exactly when its album id is absent or falsy. Otherwise it is filed under that id with its album and `{name, popularity}`. Reading a non-dict track or album raises, and so does a truthy id that is a list or a dict, which cannot be a dict key. A well-formed track never raises |
| TopAlbums.GetTopAlbums | main.py:166 | A listing without `items`, or with an empty list, gives no albums. A non-dict listing or `items: null` raises. When `items` is a list, the result is the aggregation of that list's tracks |
| TopAlbums.ReadAlbum | main.py:174-180 | Reading a non-dict album raises. Otherwise name, release date, track total and `external_urls.spotify` are the album's fields, null when absent, and images default to `[]`. Absent `artists` gives no artist names, and with an `artists` list they are each element's `name`, in order |
| TopAlbums.Summarize | main.py:173-189 | An album's entry carries its id, a count equal to its number of tracks, and those tracks in order. The album fields (name, artist names, images, release date, track total, URL) are those read from the first track that named the album |
| TopAlbums.TopAlbumsCountsTracks | main.py:173-189 | Every album kept has a truthy id. Its `tracks` are exactly the listing's tracks with that id, in listing order, and its count is their number, at least 1. No id appears twice |
| TopAlbums.TopAlbumsOrdered | main.py:192-198 | The result is non-increasing by count. Albums with equal counts appear in the order the listing first names them |
| TopAlbums.TopAlbumsSize | main.py:192-198 | The result holds min(10, number of distinct album ids) albums |
| TopAlbums.TopAlbumsCountSum | main.py:166-198 | The counts kept add up to at most the number of tracks |
| TopAlbums.TopAlbumsKeepsLargest | main.py:196-198 | An album left out has no more tracks than any album kept. When it ties with a kept album, the listing named the kept album first |
| TopAlbums.TopAlbumsReadsFirstTrack | main.py:173-180 | Each album kept carries the fields read from the album of the first track in the listing with its id |
| TopAlbums.SkippedTrackChangesNothing | main.py:170-171 | Appending a dict track whose album is a dict (or absent) with a falsy or absent id leaves the result unchanged. A track whose album is present but not a dict, `null` included, raises instead |
| TopAlbums.WellShapedSucceeds | main.py:166-189 | When every track is a dict whose album, artists and URLs have the expected kinds, the aggregation does not raise |
| TopAlbums.NonObjectTrackRaises | main.py:166-167 | A track that is not a dict makes the aggregation raise |
| TopAlbums.ReadAlbumOk | main.py:174-180 | Reading a well-shaped album's fields does not raise |
| OrderedGroups.GroupByIsGrouping | main.py:173-189 | The dict built by the loop is the insertion-ordered grouping of the entries. It has one key per id seen, in first-seen order, and each key holds exactly its values in input order |
| OrderedGroups.GroupByKeepsEveryValue | main.py:185-189 | Every filed value lands in exactly one group, so the group sizes add up to the number of filed entries |
| StableSort.SortDescIsStableSort | main.py:196 | The insertion sort is a stable descending sort. The output is non-increasing by key, and for each key value it lists the same elements in the same order as the input |
| StableSort.StableSortIsUnique | main.py:196 | Any two stable descending sorts of the same input are equal, so the reference pins down `list.sort` |
| StableSort.SortDescPermutes | main.py:196 | The sort is a permutation of its input |
| StableSort.SortDescKeepsTieOrder | main.py:196 | Elements with equal keys keep their relative input order |
| StableSort.TopLeftOutIsSmaller | main.py:196-198 | An element cut off by the slice has a key no larger than any element kept |
| StableSort.TopLeftOutTie | main.py:196-198 | An element cut off by the slice with the same key as a kept element came later in the input |
| TopGenres.GenresOf | main.py:287 | An artist without `genres` yields no tags. A present `genres` value is iterated, so a list yields its items and `null` raises. A non-dict artist raises |
| TopGenres.Tags | main.py:286-287 | The nested loop, when it does not raise, yields every tag of every artist in listing order (`AllTags`) |
| TopGenres.ReadTag | main.py:288 | Using a tag as a dict key raises exactly when the tag is a list or a dict |
| TopGenres.TopGenresOf | main.py:283-292 | The counting over a list of artists keeps at most ten genres. What it keeps is stated by `TopGenresCounts`, `TopGenresOrdered`, `TopGenresSize` and `TopGenresKeepsLargest` |
| TopGenres.GetTopGenres | main.py:286 | A listing without `items`, or with an empty list, gives an empty mapping. A non-dict listing or `items: null` raises. When `items` is a list, the result is the counting over that list's artists |
| TopGenres.TagsAreAllTags | main.py:286-287 | The nested loop raises exactly when some artist's tags cannot be read. Otherwise it visits every tag of every artist in listing order |
| TopGenres.TopGenresCounts | main.py:286-288 | Every genre kept is named by the listing, and its count is the total number of times the artists name it, at least 1. No genre appears twice |
| TopGenres.TopGenresSize | main.py:291-292 | The mapping holds min(10, number of distinct genres named) entries |
| TopGenres.TopGenresOrdered | main.py:291 | The mapping is non-increasing by count. Genres with equal counts appear in the order the listing first names them |
| TopGenres.TopGenresKeepsLargest | main.py:291-292 | A genre left out is named no more often than any genre kept. When it ties with a kept genre, the kept genre was named first |
| TopGenres.GenrelessArtistChangesNothing | main.py:287 | An artist with no `genres` field or an empty list contributes nothing |
| TopGenres.TopGenresOfRaises | main.py:286-288 | The counting raises exactly when some artist or `genres` value cannot be iterated, or some tag cannot be a dict key |
| TopGenres.TwoArtistsExample | main.py:281-292 | Artists tagged `pop, rock` and `rock` give `{rock: 2, pop: 1}` |
| Reshaping.ReshapeAsWritten | main.py:129-142 | The written extraction raises on a body that is not a dict, and on one with a null `item`, `album`, `external_urls` or `artists` |
| Reshaping.Reshape | main.py:129-142 | The corrected extraction raises on a body that is not a dict. Its leaves are stated by `ReshapeReadsPaths`, `ReshapeArtists` and `ReshapeDefaults` |
| Reshaping.ReshapeReadsPaths | main.py:129-142 | In the corrected extraction, track name, duration, album name, external URL and progress are the values at their key paths in the payload. Each is null as soon as a step is missing or is not a dict |
| Reshaping.ReshapeArtists | main.py:133 | In the corrected extraction, the artist names are the `name` of each element of `item.artists`, in order, null for an element without one. With no list there are no names |
| Reshaping.ReshapeDefaults | main.py:130-140 | In the corrected extraction, a missing `is_playing` reads as false. With a missing or null item, all track leaves are null, artists and images are empty, and `is_playing` and progress are still read. With a missing or null album, the album name is null and images are empty. Otherwise the images are the album's `images`, `[]` when absent |
| Reshaping.ReshapeAgrees | main.py:129-142 | Whenever the written extraction does not raise, the corrected extraction gives the same answer |
| Reshaping.ReshapeAgreesWithoutNulls | main.py:129-142 | On a body with no null `item`, `album`, `external_urls` or `artists`, the written and corrected extractions agree, raising included. A non-dict body, a string album or a list of non-dict artists raises in both |
| Reshaping.ReshapeDiffersIff | main.py:129-142 | The written and corrected extractions differ exactly on the bodies with a null `item`, `album`, `external_urls` or `artists` that the corrected extraction answers |
| Reshaping.WellShapedReshapes | main.py:129-142 | When item, album and external URLs are each absent or a dict, and artists is absent or a list of dicts, the written extraction does not raise |
| Reshaping.NullItemRaises | main.py:132-140 | As written, `{"is_playing": true, "item": null}` raises. The corrected extraction answers with `is_playing` kept and null or empty track fields |
| Handlers.CurrentlyPlayingAsWritten | main.py:101-156 | The written handler: 204 answers "nothing is playing" and 401 "Token expired". Another failing status or an undecodable body gives a 500. A readable body gets the reshaped answer when the written extraction does not raise, and is uncaught otherwise |
| Handlers.CurrentlyPlaying | main.py:101-156 | The corrected handler, with the same dispatch as the written one and the corrected extraction |
| Handlers.CurrentlyPlayingDispatch | main.py:111-125 | In the written and the corrected handler alike, 204 answers "nothing is playing" and 401 answers "Token expired". Another failing status or an undecodable body gives a 500. A body that is not a dict is uncaught. Any other body is answered exactly when its extraction does not raise |
| Handlers.StatusDecides | main.py:111-125 | For 204 and for every failing status, the answer depends on the status alone, not on the body |
| Handlers.RecentlyPlayed | main.py:82-99 | 401 answers "Token expired", another failing status or an undecodable body gives a 500, and a readable body is passed through unchanged |
| Handlers.RecentlyPlayedDispatch | main.py:91-99 | Recently-played maps 401 and failing statuses as currently-playing does, and passes a readable body through unchanged |
| Handlers.CurrentlyPlayingAgrees | main.py:126-156 | The corrected handler gives the same answer as the written one wherever the written one does not fail |
| Handlers.CorrectionOnlyNulls | main.py:126-142 | The corrected handler answers differently from the written one exactly when the body has a null `item`, `album`, `external_urls` or `artists` and the corrected handler answers it |
| Handlers.NullItemIsUnhandled | main.py:126-142 | A 200 with `"item": null` is an uncaught error as written. The corrected handler answers "playing", with null track fields |
| Tokens.ExchangeTokens | main.py:213-224 | A failing status or an undecodable token response is a 500 "Error exchanging token: ...", and a body that is not a dict is not caught. A readable response is refused with 400 "Failed to retrieve tokens" exactly when either token is absent or falsy. Otherwise the callback goes on with both tokens and the given `expires_in`, or 3600 when it is absent |
| Tokens.EmptyAccessTokenRejected | main.py:223-224 | An empty-string access token is refused even when the refresh token is fine |

## Left out

- Network calls (`requests.get`/`post`) are not modelled. Each upstream answer is an input: a status code, plus the parsed body or none when it is not valid JSON. A timeout or transport failure is not a separate input: the handlers answer it as they answer an undecodable body, with the 500, so it is covered by an `Upstream` whose body is none and whose status is not one the handler answers before reading the body: other than 401 for recently-played, and other than 204 and 401 for currently-playing.
- The FastAPI app, CORS middleware and response headers are framework plumbing.
- Environment loading and the login redirect URL are fixed strings with no logic.
- The refresh endpoint, including its Basic-auth header (a call into `base64`), is not modelled. It is a pass-through whose error mapping collapses into a 500.
- Logging with `print` is not modelled.
- After the token check, the callback makes eight profile and top-list fetches and assembles the response. That is orchestration of calls the model treats as inputs. `get_top_albums` and `get_top_genres`, which it calls, are modelled.
- Exception texts are not modelled. A caught client exception is `ErrorText(prefix)`, with the prefix the handler puts before `str(e)`.
- The kind of an uncaught exception (`AttributeError`, `TypeError`, ...) is not distinguished. All of them are one outcome.
- Python's `True == 1` and `1 == 1.0` key aliasing in dicts is not modelled. Numbers are integers, booleans are a separate kind, and two JSON values are the same dict key exactly when they are equal values.
- Floating-point numbers are not modelled.
- An undecodable body counts as a caught client exception. In the `requests` library, the error that `response.json()` raises is a `RequestException` from version 2.27 on, and the model assumes such a version.
- Absent fields versus present-null fields: the nested `.get(..., {})` chains never raise on an absent key, and the model proves it. A key that is present with `null`, or with a value of the wrong kind, makes the next `.get` or the iteration raise. The model follows the code there (`ReshapeAsWritten`, `ReadAlbum`, `GenresOf`). The one exception is currently-playing: the upstream's playback state can carry `"item": null`, and the `{}` defaults show that the handler means a missing item to give null fields. That correction is under Findings.
- The top-genres result is a Python dict built from the sorted pairs. It is modelled as the ordered sequence of `(genre, count)` pairs, which is the dict's iteration order. The keys are distinct (`TopGenres.TopGenresCounts`).

## Findings

| source | as written | input that shows it | evidently intended | confidence | as-written member | corrected member |
|---|---|---|---|---|---|---|
| main.py:132-140 | `data.get("item", {})` falls back to `{}` only when `item` is absent. When the upstream sends `"item": null`, the next `.get` is called on `None` and raises. The handler does not catch that, so the client gets a bare 500. A present-null `album`, `external_urls` or `artists` raises the same way | a 200 response with body `{"is_playing": true, "item": null}` | a missing or null item (likewise album or URLs) reads as `{}`, and null artists as `[]`, so the answer is `is_playing: true` with null track name, album name, duration and URL, and no artists or images | medium, not executed | Reshaping.NullItemRaises | Reshaping.ReshapeDefaults |

The corrected extraction `Reshaping.Reshape` is used by `Handlers.CurrentlyPlaying`. `Reshaping.ReshapeAgrees` and `Handlers.CurrentlyPlayingAgrees` prove that it changes only inputs on which the written code raises. `Reshaping.ReshapeDiffersIff` and `Handlers.CorrectionOnlyNulls` prove that those inputs are exactly the bodies with a null `item`, `album`, `external_urls` or `artists` that the corrected extraction answers. Every other input that raises as written (a body that is not a dict, a string album, a non-dict artist) raises in the corrected handler too.

=== FILE: handlers.dfy ===
/** The status dispatch of the two playback endpoints.

    An upstream answer is its status code and its body, already parsed
    (`None` when the body is not valid JSON, so that `response.json()`
    raises). `raise_for_status()` raises for every status from 400 to 599.
    Both handlers catch only the HTTP client's own exceptions (failed status,
    undecodable body) and turn them into a 500 whose detail is the
    exception's text; an `HTTPException` raised inside the `try` passes
    through unchanged, and any other exception is left to the framework.
 */
module Handlers {
  import opened Results
  import opened Json
  import opened Reshaping

  /** What the upstream answered */
  datatype Upstream = Upstream(status: int, body: Option<Json>)

  /** The detail of an error response: a fixed message, or the text of the
      caught exception after a fixed prefix */
  datatype Detail = Message(text: string) | ErrorText(prefix: string)

  /** What a handler answers: a body with status 200, an `HTTPException`, or
      an exception the handler does not catch (a bare 500 from the framework) */
  datatype Response<T> = Reply(value: T) | Refuse(status: int, detail: Detail) | Unhandled

  const TokenExpired: string := "Token expired"

  /** `response.raise_for_status()` raises */
  predicate RaisesForStatus(status: int) {
    400 <= status < 600
  }

  /** `response.raise_for_status(); response.json()` inside the handler's `try` */
  function Body(u: Upstream): Response<Json> {
    if RaisesForStatus(u.status) || u.body.None? then Refuse(500, ErrorText(""))
    else Reply(u.body.value)
  }

  /** `get_recently_played`: the upstream body passed through */
  function RecentlyPlayed(u: Upstream): (r: Response<Json>)
    ensures u.status == 401 ==> r == Refuse(401, Message("Token expired"))
    ensures u.status != 401 && RaisesForStatus(u.status) ==> r == Refuse(500, ErrorText(""))
    ensures !RaisesForStatus(u.status) && u.body.None? ==> r == Refuse(500, ErrorText(""))
    ensures !RaisesForStatus(u.status) && u.body.Some? ==> r == Reply(u.body.value)
  {
    if u.status == 401 then Refuse(401, Message(TokenExpired))
    else Body(u)
  }

  /** The answer for "nothing is playing" */
  const NotPlaying: Json := JObj([("is_playing", JBool(false)), ("track", JNull)])

  /** `get_currently_playing` with the written field extraction */
  function CurrentlyPlayingAsWritten(u: Upstream): (r: Response<Json>)
    ensures u.status == 204 ==> r == Reply(NotPlaying)
    ensures u.status == 401 ==> r == Refuse(401, Message("Token expired"))
    ensures u.status != 401 && RaisesForStatus(u.status) ==> r == Refuse(500, ErrorText(""))
    ensures u.status != 204 && !RaisesForStatus(u.status) && u.body.None? ==> r == Refuse(500, ErrorText(""))
    ensures u.status != 204 && !RaisesForStatus(u.status) && u.body.Some? ==>
              r == if ReshapeAsWritten(u.body.value).Ok? then Reply(PlaybackJson(ReshapeAsWritten(u.body.value).value)) else Unhandled
  {
    if u.status == 204 then Reply(NotPlaying)
    else if u.status == 401 then Refuse(401, Message(TokenExpired))
    else
      match Body(u)
      case Reply(data) =>
        (match ReshapeAsWritten(data)
         case Ok(p) => Reply(PlaybackJson(p))
         case Uncaught => Unhandled)
      case Refuse(s, d) => Refuse(s, d)
      case Unhandled => Unhandled
  }

  /** `get_currently_playing` with the corrected extraction, where a null
      nested object or list reads as missing */
  function CurrentlyPlaying(u: Upstream): (r: Response<Json>)
    ensures u.status == 204 ==> r == Reply(NotPlaying)
    ensures u.status == 401 ==> r == Refuse(401, Message("Token expired"))
    ensures u.status != 401 && RaisesForStatus(u.status) ==> r == Refuse(500, ErrorText(""))
    ensures u.status != 204 && !RaisesForStatus(u.status) && u.body.None? ==> r == Refuse(500, ErrorText(""))
    ensures u.status != 204 && !RaisesForStatus(u.status) && u.body.Some? ==>
              r == if Reshape(u.body.value).Ok? then Reply(PlaybackJson(Reshape(u.body.value).value)) else Unhandled
  {
    if u.status == 204 then Reply(NotPlaying)
    else if u.status == 401 then Refuse(401, Message(TokenExpired))
    else
      match Body(u)
      case Reply(data) =>
        (match Reshape(data)
         case Ok(p) => Reply(PlaybackJson(p))
         case Uncaught => Unhandled)
      case Refuse(s, d) => Refuse(s, d)
      case Unhandled => Unhandled
  }

  // ---------------------------------------------------------------------------
  // Properties

  /** The currently-playing dispatch, the same in the written and the
      corrected handler: 204 answers "nothing is playing" without reading the
      body, 401 answers "Token expired", any other failing status or an
      undecodable body answers 500, a body that is not an object is an
      uncaught error, and an object is reshaped. */
  lemma CurrentlyPlayingDispatch(u: Upstream)
    ensures u.status == 204 ==>
              CurrentlyPlayingAsWritten(u) == CurrentlyPlaying(u) == Reply(NotPlaying)
    ensures u.status == 401 ==>
              CurrentlyPlayingAsWritten(u) == CurrentlyPlaying(u) == Refuse(401, Message("Token expired"))
    ensures u.status != 401 && RaisesForStatus(u.status) ==>
              CurrentlyPlayingAsWritten(u) == CurrentlyPlaying(u) == Refuse(500, ErrorText(""))
    ensures u.status != 204 && !RaisesForStatus(u.status) && u.body.None? ==>
              CurrentlyPlayingAsWritten(u) == CurrentlyPlaying(u) == Refuse(500, ErrorText(""))
    ensures u.status != 204 && !RaisesForStatus(u.status) && u.body.Some? && !u.body.value.JObj? ==>
              CurrentlyPlayingAsWritten(u) == CurrentlyPlaying(u) == Unhandled
    ensures u.status != 204 && !RaisesForStatus(u.status) && u.body.Some? ==>
              (CurrentlyPlayingAsWritten(u).Reply? <==> ReshapeAsWritten(u.body.value).Ok?) &&
              (CurrentlyPlaying(u).Reply? <==> Reshape(u.body.value).Ok?)
  {
  }

  /** Only the status matters for 204, 401 and every other failing status:
      two upstream answers with such a status get the same response,
      whatever their bodies. */
  lemma StatusDecides(u: Upstream, v: Upstream)
    requires u.status == v.status
    requires u.status == 204 || RaisesForStatus(u.status)
    ensures CurrentlyPlaying(u) == CurrentlyPlaying(v)
    ensures CurrentlyPlayingAsWritten(u) == CurrentlyPlayingAsWritten(v)
    ensures RaisesForStatus(u.status) ==> RecentlyPlayed(u) == RecentlyPlayed(v)
  {
  }

  /** Recently-played maps the statuses the same way as currently-playing:
      401 is "Token expired" and other failing statuses are 500 in both; a
      readable body is passed through unchanged. */
  lemma RecentlyPlayedDispatch(u: Upstream)
    ensures u.status == 401 ==> RecentlyPlayed(u) == CurrentlyPlaying(u) == Refuse(401, Message("Token expired"))
    ensures RaisesForStatus(u.status) ==> RecentlyPlayed(u) == CurrentlyPlaying(u)
    ensures !RaisesForStatus(u.status) && u.body.Some? ==> RecentlyPlayed(u) == Reply(u.body.value)
    ensures !RaisesForStatus(u.status) && u.body.None? ==> RecentlyPlayed(u) == Refuse(500, ErrorText(""))
  {
  }

  /** The correction only turns uncaught errors into answers: whenever the
      written handler answers, the corrected one answers the same. */
  lemma CurrentlyPlayingAgrees(u: Upstream)
    requires CurrentlyPlayingAsWritten(u) != Unhandled
    ensures CurrentlyPlaying(u) == CurrentlyPlayingAsWritten(u)
  {
    if u.status != 204 && u.status != 401 && Body(u).Reply? {
      var data := Body(u).value;
      ReshapeAgrees(data, ReshapeAsWritten(data).value);
    }
  }

  /** The two handlers differ only on a readable body with a null nested
      object or list, and on such a body exactly when the corrected handler
      answers it. */
  lemma CorrectionOnlyNulls(u: Upstream)
    ensures CurrentlyPlaying(u) != CurrentlyPlayingAsWritten(u) ==>
              u.body.Some? && HasNullContainer(u.body.value)
    ensures CurrentlyPlaying(u) != CurrentlyPlayingAsWritten(u) <==>
              && u.status != 204 && !RaisesForStatus(u.status) && u.body.Some?
              && HasNullContainer(u.body.value) && CurrentlyPlaying(u).Reply?
  {
    if u.body.Some? {
      ReshapeDiffersIff(u.body.value);
    }
  }

  /** As written, a 200 carrying `"item": null` is answered with an uncaught
      error; the corrected handler answers "playing, no track details". */
  lemma NullItemIsUnhandled()
    ensures CurrentlyPlayingAsWritten(Upstream(200, Some(NullItem))) == Unhandled
    ensures CurrentlyPlaying(Upstream(200, Some(NullItem)))
              == Reply(PlaybackJson(Playback(JBool(true), TrackView(JNull, [], JNull, JArr([]), JNull, JNull, JNull))))
  {
    var u := Upstream(200, Some(NullItem));
    assert Body(u) == Reply(NullItem);
    NullItemRaises();
  }
}

=== FILE: json.dfy ===
/** JSON values as the proxy sees them once the upstream body has been loaded
    into Python objects, and the handful of Python operations the handlers apply
    to them: `d.get(key, default)`, iteration with `for`, truthiness and
    hashability. Numbers are integers (the upstream fields read here are all
    integral).
 */
module Json {
  import opened Results

  datatype Json =
    | JNull
    | JBool(b: bool)
    | JNum(n: int)
    | JStr(s: string)
    | JArr(items: seq<Json>)
    | JObj(fields: seq<(string, Json)>)

  /** The value bound to `key` in an object's fields. When a key is repeated the
      last binding wins, as when such an object is loaded into a Python dict. */
  function Lookup(fields: seq<(string, Json)>, key: string): (r: Option<Json>)
    ensures r.None? <==> forall i :: 0 <= i < |fields| ==> fields[i].0 != key
    decreases |fields|
  {
    if |fields| == 0 then None
    else if fields[|fields| - 1].0 == key then Some(fields[|fields| - 1].1)
    else Lookup(fields[..|fields| - 1], key)
  }

  /** The position of the last binding of `key`, or -1 */
  function LastIndex(fields: seq<(string, Json)>, key: string): int
    decreases |fields|
  {
    if |fields| == 0 then -1
    else if fields[|fields| - 1].0 == key then |fields| - 1
    else LastIndex(fields[..|fields| - 1], key)
  }

  /** Position `i` holds the last binding of `key` */
  predicate LastBinding(fields: seq<(string, Json)>, key: string, i: int) {
    0 <= i < |fields| && fields[i].0 == key && forall j :: i < j < |fields| ==> fields[j].0 != key
  }

  /** A value found is the object's last binding of the key */
  lemma {:induction false} LookupIsLastBinding(fields: seq<(string, Json)>, key: string)
    requires Lookup(fields, key).Some?
    ensures LastBinding(fields, key, LastIndex(fields, key))
    ensures fields[LastIndex(fields, key)].1 == Lookup(fields, key).value
    decreases |fields|
  {
    var n := |fields| - 1;
    if fields[n].0 != key {
      var init := fields[..n];
      assert Lookup(fields, key) == Lookup(init, key);
      assert LastIndex(fields, key) == LastIndex(init, key);
      LookupIsLastBinding(init, key);
      var i := LastIndex(init, key);
      assert forall j :: i < j < n ==> fields[j] == init[j];
      assert fields[i] == init[i];
    }
  }

  /** `d.get(key, default)` on an object's fields: the stored value when the
      key is present (a stored null included), `default` when it is absent */
  function GetField(fields: seq<(string, Json)>, key: string, default: Json): Json {
    Lookup(fields, key).GetOr(default)
  }

  /** `v.get(key, default)`: the stored value when the key is present (a stored
      null included), `default` when it is absent; any non-object raises. */
  function Get(v: Json, key: string, default: Json): (r: Result<Json>)
    ensures r.Ok? <==> v.JObj?
    ensures v.JObj? && Lookup(v.fields, key).None? ==> r == Ok(default)
    ensures v.JObj? && Lookup(v.fields, key).Some? ==> r == Ok(Lookup(v.fields, key).value)
  {
    if v.JObj? then Ok(GetField(v.fields, key, default)) else Uncaught
  }

  /** The distinct keys of an object, in order of first appearance, as strings */
  function KeyStrings(fields: seq<(string, Json)>): (r: seq<Json>)
    ensures forall i :: 0 <= i < |r| ==> r[i].JStr?
    ensures |fields| > 0 ==> |r| > 0
    decreases |fields|
  {
    if |fields| == 0 then []
    else
      var ks := KeyStrings(fields[..|fields| - 1]);
      var k := JStr(fields[|fields| - 1].0);
      if k in ks then ks else ks + [k]
  }

  /** `for x in v`: a list yields its items, a string its one-character
      strings, an object its keys; anything else raises. */
  function Iter(v: Json): (r: Result<seq<Json>>)
    ensures r.Ok? <==> v.JArr? || v.JStr? || v.JObj?
    ensures v.JArr? ==> r == Ok(v.items)
    ensures r.Ok? && !v.JArr? ==> forall i :: 0 <= i < |r.value| ==> r.value[i].JStr?
    ensures r.Ok? && !v.JArr? && (v.JStr? ==> |v.s| > 0) && (v.JObj? ==> |v.fields| > 0) ==> |r.value| > 0
  {
    match v
    case JArr(xs) => Ok(xs)
    case JStr(s) => Ok(seq(|s|, i requires 0 <= i < |s| => JStr([s[i]])))
    case JObj(fs) => Ok(KeyStrings(fs))
    case _ => Uncaught
  }

  /** Python truthiness: null, false, 0 and empty strings, lists and objects are falsy */
  predicate Truthy(v: Json) {
    match v
    case JNull => false
    case JBool(b) => b
    case JNum(n) => n != 0
    case JStr(s) => |s| > 0
    case JArr(xs) => |xs| > 0
    case JObj(fs) => |fs| > 0
  }

  /** Lists and dicts cannot be dictionary keys; using one raises TypeError */
  predicate Hashable(v: Json) {
    !v.JArr? && !v.JObj?
  }

  /** `[x.get(key) for x in xs]` */
  function GetEach(xs: seq<Json>, key: string): (r: Result<seq<Json>>)
    ensures r.Ok? <==> forall i :: 0 <= i < |xs| ==> xs[i].JObj?
    ensures r.Ok? ==> |r.value| == |xs|
    ensures r.Ok? ==> forall i :: 0 <= i < |xs| ==> Get(xs[i], key, JNull) == Ok(r.value[i])
    decreases |xs|
  {
    if |xs| == 0 then Ok([])
    else
      var init :- GetEach(xs[..|xs| - 1], key);
      var last :- Get(xs[|xs| - 1], key, JNull);
      Ok(init + [last])
  }

  /** A field of an object; null when it is absent or `v` is not an object */
  function FieldOf(v: Json, key: string): Json {
    if v.JObj? then Lookup(v.fields, key).GetOr(JNull) else JNull
  }

  /** The value reached by following `keys` from `v`; null when a step is
      missing or lands on something that is not an object */
  ghost function Path(v: Json, keys: seq<string>): Json
    decreases |keys|
  {
    if |keys| == 0 then v
    else if v.JObj? then Path(FieldOf(v, keys[0]), keys[1..])
    else JNull
  }
}

=== FILE: ordered_groups.dfy ===
/** An insertion-ordered map that collects values under keys: the container a
    Python dict is when it is filled in a loop and then read back with
    `.items()`. Keys keep the position of their first insertion; each key's
    values keep their arrival order.

    The input is a sequence of entries, one per element the caller scans:
    `Some((k, v))` files `v` under `k`, `None` is an element the caller skips.
 */
module OrderedGroups {
  import opened Results

  datatype Group<K, V> = Group(key: K, members: seq<V>)

  ghost predicate HasKey<K, V>(e: Option<(K, V)>, k: K) {
    e.Some? && e.value.0 == k
  }

  /** Some entry files a value under `k` */
  ghost predicate Occurs<K, V>(es: seq<Option<(K, V)>>, k: K) {
    exists i :: 0 <= i < |es| && HasKey(es[i], k)
  }

  /** The position of the first entry with key `k` */
  ghost function FirstIndex<K, V>(es: seq<Option<(K, V)>>, k: K): (r: nat)
    requires Occurs(es, k)
    ensures r < |es| && HasKey(es[r], k)
    ensures forall j :: 0 <= j < r ==> !HasKey(es[j], k)
    decreases |es|
  {
    var pre := es[..|es| - 1];
    if exists i :: 0 <= i < |pre| && HasKey(pre[i], k) then FirstIndex(pre, k)
    else |es| - 1
  }

  /** The values filed under `k`, in input order: the reference definition of a group */
  ghost function MembersOf<K, V>(es: seq<Option<(K, V)>>, k: K): seq<V>
    decreases |es|
  {
    if |es| == 0 then []
    else
      var e := es[|es| - 1];
      MembersOf(es[..|es| - 1], k) + (if HasKey(e, k) then [e.value.1] else [])
  }

  /** How many entries are not skipped */
  function Present<K, V>(es: seq<Option<(K, V)>>): nat
    decreases |es|
  {
    if |es| == 0 then 0
    else Present(es[..|es| - 1]) + (if es[|es| - 1].Some? then 1 else 0)
  }

  /** Total number of values held by the groups */
  function SumSizes<K, V>(gs: seq<Group<K, V>>): nat
    decreases |gs|
  {
    if |gs| == 0 then 0 else SumSizes(gs[..|gs| - 1]) + |gs[|gs| - 1].members|
  }

  ghost predicate DistinctKeys<K, V>(gs: seq<Group<K, V>>) {
    forall i, j :: 0 <= i < j < |gs| ==> gs[i].key != gs[j].key
  }

  /** Every group's key occurs, and groups are ordered by the first occurrence of their key */
  ghost predicate FirstOrdered<K, V>(gs: seq<Group<K, V>>, es: seq<Option<(K, V)>>) {
    && (forall i :: 0 <= i < |gs| ==> Occurs(es, gs[i].key))
    && (forall i, j :: 0 <= i < j < |gs| ==> FirstIndex(es, gs[i].key) < FirstIndex(es, gs[j].key))
  }

  /** `gs` is the insertion-ordered map that the entries `es` describe: one group
      per key that occurs, holding exactly that key's values, groups ordered by
      the first occurrence of their key. */
  ghost predicate IsGroupingOf<K(!new), V>(gs: seq<Group<K, V>>, es: seq<Option<(K, V)>>) {
    && DistinctKeys(gs)
    && FirstOrdered(gs, es)
    && (forall i :: 0 <= i < |gs| ==> gs[i].members == MembersOf(es, gs[i].key))
    && (forall k :: Occurs(es, k) ==> exists i :: 0 <= i < |gs| && gs[i].key == k)
  }

  /** The position of the group for `k`, or -1 (the `k in d` test) */
  function IndexOf<K(==), V>(gs: seq<Group<K, V>>, k: K): (r: int)
    ensures -1 <= r < |gs|
    ensures r == -1 <==> forall i :: 0 <= i < |gs| ==> gs[i].key != k
    ensures r >= 0 ==> gs[r].key == k
    decreases |gs|
  {
    if |gs| == 0 then -1
    else if gs[|gs| - 1].key == k then |gs| - 1
    else IndexOf(gs[..|gs| - 1], k)
  }

  /** One loop step: append `v` to the group for `k`, creating it at the end if needed */
  function Add<K(==), V>(gs: seq<Group<K, V>>, k: K, v: V): seq<Group<K, V>> {
    var i := IndexOf(gs, k);
    if i < 0 then gs + [Group(k, [v])] else gs[i := Group(k, gs[i].members + [v])]
  }

  /** The map the scanning loop builds */
  function GroupBy<K(==), V>(es: seq<Option<(K, V)>>): seq<Group<K, V>>
    decreases |es|
  {
    if |es| == 0 then []
    else
      var gs := GroupBy(es[..|es| - 1]);
      match es[|es| - 1]
      case None => gs
      case Some(kv) => Add(gs, kv.0, kv.1)
  }

  /** Filing one more value is one loop step */
  lemma GroupBySnoc<K, V>(pre: seq<Option<(K, V)>>, k: K, v: V)
    ensures GroupBy(pre + [Some((k, v))]) == Add(GroupBy(pre), k, v)
  {
    assert (pre + [Some((k, v))])[..|pre|] == pre;
  }

  lemma OccursSnoc<K, V>(pre: seq<Option<(K, V)>>, e: Option<(K, V)>, k: K)
    ensures Occurs(pre + [e], k) <==> Occurs(pre, k) || HasKey(e, k)
  {
    var es := pre + [e];
    if Occurs(es, k) && !HasKey(e, k) {
      var i :| 0 <= i < |es| && HasKey(es[i], k);
      assert es[i] == pre[i];
    }
    if Occurs(pre, k) {
      var i :| 0 <= i < |pre| && HasKey(pre[i], k);
      assert es[i] == pre[i];
    }
    if HasKey(e, k) {
      assert es[|pre|] == e;
    }
  }

  lemma MembersOfAbsent<K, V>(es: seq<Option<(K, V)>>, k: K)
    requires !Occurs(es, k)
    ensures MembersOf(es, k) == []
    decreases |es|
  {
    if |es| > 0 {
      var pre := es[..|es| - 1];
      MembersOfAbsent(pre, k);
    }
  }

  /** A present key's group is never empty */
  lemma MembersOfPresent<K, V>(es: seq<Option<(K, V)>>, k: K)
    requires Occurs(es, k)
    ensures |MembersOf(es, k)| > 0
    decreases |es|
  {
    var pre := es[..|es| - 1];
    assert es == pre + [es[|es| - 1]];
    OccursSnoc(pre, es[|es| - 1], k);
    if !HasKey(es[|es| - 1], k) {
      MembersOfPresent(pre, k);
    }
  }

  lemma SumSizesUpdate<K, V>(gs: seq<Group<K, V>>, i: nat, g: Group<K, V>)
    requires i < |gs|
    ensures SumSizes(gs[i := g]) == SumSizes(gs) - |gs[i].members| + |g.members|
    decreases |gs|
  {
    var n := |gs|;
    if i < n - 1 {
      assert gs[i := g][..n - 1] == gs[..n - 1][i := g];
      SumSizesUpdate(gs[..n - 1], i, g);
    } else {
      assert gs[i := g][..n - 1] == gs[..n - 1];
    }
  }

  /** Appending one entry: how occurrence, first positions and groups change */
  lemma SnocFacts<K, V>(pre: seq<Option<(K, V)>>, e: Option<(K, V)>, k: K)
    ensures Occurs(pre + [e], k) <==> Occurs(pre, k) || HasKey(e, k)
    ensures Occurs(pre, k) ==> FirstIndex(pre + [e], k) == FirstIndex(pre, k)
    ensures !Occurs(pre, k) && HasKey(e, k) ==> FirstIndex(pre + [e], k) == |pre|
    ensures MembersOf(pre + [e], k) == MembersOf(pre, k) + (if HasKey(e, k) then [e.value.1] else [])
  {
    assert (pre + [e])[..|pre|] == pre;
    OccursSnoc(pre, e, k);
  }

  /** Filing a value under a key not yet in the map appends a new last group */
  lemma AddNewKeepsGrouping<K(!new), V>(gs: seq<Group<K, V>>, pre: seq<Option<(K, V)>>, k: K, v: V)
    requires IsGroupingOf(gs, pre)
    requires IndexOf(gs, k) == -1
    ensures IsGroupingOf(gs + [Group(k, [v])], pre + [Some((k, v))])
  {
    var e := Some((k, v));
    var es := pre + [e];
    var r := gs + [Group(k, [v])];
    forall k' ensures Occurs(es, k') <==> Occurs(pre, k') || k' == k {
      SnocFacts(pre, e, k');
    }
    assert !Occurs(pre, k);
    MembersOfAbsent(pre, k);
    SnocFacts(pre, e, k);
    forall a | 0 <= a < |r| ensures Occurs(es, r[a].key) && r[a].members == MembersOf(es, r[a].key) {
      if a < |gs| {
        assert r[a] == gs[a];
        SnocFacts(pre, e, gs[a].key);
      }
    }
    forall k' | Occurs(es, k') ensures exists a :: 0 <= a < |r| && r[a].key == k' {
      if k' != k {
        var a :| 0 <= a < |gs| && gs[a].key == k';
        assert r[a] == gs[a];
      } else {
        assert r[|gs|].key == k;
      }
    }
    AddNewKeepsOrder(gs, pre, k, v);
  }

  lemma AddNewKeepsOrder<K, V>(gs: seq<Group<K, V>>, pre: seq<Option<(K, V)>>, k: K, v: V)
    requires FirstOrdered(gs, pre)
    requires !Occurs(pre, k)
    ensures FirstOrdered(gs + [Group(k, [v])], pre + [Some((k, v))])
  {
    var e := Some((k, v));
    var es := pre + [e];
    var r := gs + [Group(k, [v])];
    SnocFacts(pre, e, k);
    forall a | 0 <= a < |gs| ensures r[a] == gs[a] && Occurs(es, gs[a].key) && FirstIndex(es, gs[a].key) == FirstIndex(pre, gs[a].key) < |pre| {
      SnocFacts(pre, e, gs[a].key);
    }
    assert r[|gs|].key == k;
  }

  /** Filing a value under a key already in the map extends that group in place */
  lemma AddOldKeepsGrouping<K(!new), V>(gs: seq<Group<K, V>>, pre: seq<Option<(K, V)>>, k: K, v: V, i: nat)
    requires IsGroupingOf(gs, pre)
    requires i < |gs| && gs[i].key == k
    ensures IsGroupingOf(gs[i := Group(k, gs[i].members + [v])], pre + [Some((k, v))])
  {
    var e := Some((k, v));
    var es := pre + [e];
    var r := gs[i := Group(k, gs[i].members + [v])];
    forall k' ensures Occurs(es, k') <==> Occurs(pre, k') || k' == k {
      SnocFacts(pre, e, k');
    }
    assert Occurs(pre, k);
    forall a | 0 <= a < |r| ensures Occurs(es, r[a].key) && r[a].members == MembersOf(es, r[a].key) {
      SnocFacts(pre, e, gs[a].key);
    }
    forall k' | Occurs(es, k') ensures exists a :: 0 <= a < |r| && r[a].key == k' {
      var a :| 0 <= a < |gs| && gs[a].key == k';
      assert r[a].key == k';
    }
    AddOldKeepsOrder(gs, pre, k, v, i);
  }

  lemma AddOldKeepsOrder<K(!new), V>(gs: seq<Group<K, V>>, pre: seq<Option<(K, V)>>, k: K, v: V, i: nat)
    requires FirstOrdered(gs, pre)
    requires i < |gs| && gs[i].key == k
    ensures FirstOrdered(gs[i := Group(k, gs[i].members + [v])], pre + [Some((k, v))])
  {
    var e := Some((k, v));
    var es := pre + [e];
    var r := gs[i := Group(k, gs[i].members + [v])];
    forall a | 0 <= a < |r| ensures Occurs(es, r[a].key) {
      SnocFacts(pre, e, gs[a].key);
    }
    forall a, b | 0 <= a < b < |r| ensures FirstIndex(es, r[a].key) < FirstIndex(es, r[b].key) {
      SnocFacts(pre, e, gs[a].key);
      SnocFacts(pre, e, gs[b].key);
    }
  }

  lemma AddKeepsGrouping<K(!new), V>(gs: seq<Group<K, V>>, pre: seq<Option<(K, V)>>, k: K, v: V)
    requires IsGroupingOf(gs, pre)
    ensures IsGroupingOf(Add(gs, k, v), pre + [Some((k, v))])
  {
    var i := IndexOf(gs, k);
    if i < 0 {
      AddNewKeepsGrouping(gs, pre, k, v);
    } else {
      AddOldKeepsGrouping(gs, pre, k, v, i);
    }
  }

  /** The loop's map is exactly the grouping of its input */
  lemma {:induction false} GroupByIsGrouping<K(!new), V>(es: seq<Option<(K, V)>>)
    ensures IsGroupingOf(GroupBy(es), es)
    decreases |es|
  {
    if |es| > 0 {
      var pre := es[..|es| - 1];
      var e := es[|es| - 1];
      assert es == pre + [e];
      GroupByIsGrouping(pre);
      match e
      case Some(kv) =>
        AddKeepsGrouping(GroupBy(pre), pre, kv.0, kv.1);
      case None =>
        var gs := GroupBy(pre);
        forall k' ensures Occurs(es, k') <==> Occurs(pre, k') {
          OccursSnoc(pre, e, k');
        }
        forall k' | Occurs(pre, k') ensures FirstIndex(es, k') == FirstIndex(pre, k') {
        }
        forall a | 0 <= a < |gs| ensures gs[a].members == MembersOf(es, gs[a].key) {
        }
    }
  }

  /** Every value lands in exactly one group: the sizes add up to the number of
      entries that were not skipped. */
  lemma {:induction false} GroupByKeepsEveryValue<K, V>(es: seq<Option<(K, V)>>)
    ensures SumSizes(GroupBy(es)) == Present(es)
    ensures |GroupBy(es)| <= Present(es) <= |es|
    decreases |es|
  {
    if |es| > 0 {
      var pre := es[..|es| - 1];
      GroupByKeepsEveryValue(pre);
      var gs := GroupBy(pre);
      match es[|es| - 1]
      case None =>
      case Some(kv) =>
        var i := IndexOf(gs, kv.0);
        if i >= 0 {
          SumSizesUpdate(gs, i, Group(kv.0, gs[i].members + [kv.1]));
        } else {
          assert (gs + [Group(kv.0, [kv.1])])[..|gs|] == gs;
        }
    }
  }
  /** The keys of the map, as a set */
  ghost function KeySet<K, V>(gs: seq<Group<K, V>>): set<K> {
    set i | 0 <= i < |gs| :: gs[i].key
  }

  /** With distinct keys, the map has one group per key */
  lemma {:induction false} KeySetSize<K, V>(gs: seq<Group<K, V>>)
    requires DistinctKeys(gs)
    ensures |KeySet(gs)| == |gs|
    decreases |gs|
  {
    if |gs| > 0 {
      var pre := gs[..|gs| - 1];
      var last := gs[|gs| - 1].key;
      KeySetSize(pre);
      assert KeySet(gs) == KeySet(pre) + {last} by {
        forall k | k in KeySet(gs) ensures k in KeySet(pre) + {last} {
          var i :| 0 <= i < |gs| && gs[i].key == k;
          if i < |gs| - 1 {
            assert pre[i] == gs[i];
          }
        }
        forall k | k in KeySet(pre) ensures k in KeySet(gs) {
          var i :| 0 <= i < |pre| && pre[i].key == k;
          assert gs[i] == pre[i];
        }
      }
      assert last !in KeySet(pre);
    }
  }

  /** Every group of the map holds at least one value */
  lemma GroupsNonEmpty<K(!new), V>(es: seq<Option<(K, V)>>)
    ensures forall i :: 0 <= i < |GroupBy(es)| ==> |GroupBy(es)[i].members| > 0
  {
    var gs := GroupBy(es);
    GroupByIsGrouping(es);
    forall i | 0 <= i < |gs| ensures |gs[i].members| > 0 {
      MembersOfPresent(es, gs[i].key);
    }
  }

  /** Every value of a group was filed under that group's key by some entry */
  lemma MembersOfFrom<K, V>(es: seq<Option<(K, V)>>, k: K, j: nat)
    requires j < |MembersOf(es, k)|
    ensures exists i :: 0 <= i < |es| && HasKey(es[i], k) && es[i].value.1 == MembersOf(es, k)[j]
    decreases |es|
  {
    var pre := es[..|es| - 1];
    if j < |MembersOf(pre, k)| {
      MembersOfFrom(pre, k, j);
      var i :| 0 <= i < |pre| && HasKey(pre[i], k) && pre[i].value.1 == MembersOf(pre, k)[j];
      assert es[i] == pre[i];
    } else {
      assert HasKey(es[|es| - 1], k);
    }
  }

  /** The first value of a key's group is the one filed by the key's first entry */
  lemma {:induction false} MembersOfHead<K, V>(es: seq<Option<(K, V)>>, k: K)
    requires Occurs(es, k)
    ensures |MembersOf(es, k)| > 0
    ensures MembersOf(es, k)[0] == es[FirstIndex(es, k)].value.1
    decreases |es|
  {
    var pre := es[..|es| - 1];
    if exists i :: 0 <= i < |pre| && HasKey(pre[i], k) {
      MembersOfHead(pre, k);
      assert FirstIndex(es, k) == FirstIndex(pre, k);
      assert es[FirstIndex(pre, k)] == pre[FirstIndex(pre, k)];
    } else {
      MembersOfAbsent(pre, k);
    }
  }

  /** An entry with key `k` preceded by none is the key's first entry */
  lemma FirstIndexIs<K, V>(es: seq<Option<(K, V)>>, k: K, p: nat)
    requires p < |es| && HasKey(es[p], k)
    requires forall q :: 0 <= q < p ==> !HasKey(es[q], k)
    ensures Occurs(es, k) && FirstIndex(es, k) == p
  {
    assert Occurs(es, k);
  }

  /** Ranks items that carry a key by the first entry with that key (-1 for a
      key with no entry): the order in which the map first meets them */
  ghost function FirstRank<K, V, T>(es: seq<Option<(K, V)>>, keyOf: T -> K): T -> int {
    (x: T) => if Occurs(es, keyOf(x)) then FirstIndex(es, keyOf(x)) else -1
  }

  /** Items made one per group, in the map's order, are ranked increasingly */
  lemma GroupOrderRanked<K(!new), V, T>(es: seq<Option<(K, V)>>, keyOf: T -> K, items: seq<T>)
    requires IsGroupingOf(GroupBy(es), es)
    requires |items| == |GroupBy(es)|
    requires forall i :: 0 <= i < |items| ==> keyOf(items[i]) == GroupBy(es)[i].key
    ensures forall a, b :: 0 <= a < b < |items| ==> FirstRank(es, keyOf)(items[a]) < FirstRank(es, keyOf)(items[b])
  {
    var gs := GroupBy(es);
    forall a, b | 0 <= a < b < |items| ensures FirstRank(es, keyOf)(items[a]) < FirstRank(es, keyOf)(items[b]) {
      assert keyOf(items[a]) == gs[a].key && keyOf(items[b]) == gs[b].key;
    }
  }
}

=== FILE: playback.dfy ===
/** The field extraction of `get_currently_playing`: the upstream playback
    state is reshaped into `{is_playing, track: {name, artists, album: {name,
    images}, duration_ms, progress_ms, external_url}}`.

    `ReshapeAsWritten` follows the handler's expressions exactly. Each
    `.get(key, {})` falls back to `{}` only when the key is ABSENT, so a field
    that is present but null (the upstream sends `"item": null` when nothing
    identifiable is playing) makes the next `.get` raise. `Reshape` is the
    extraction the handler evidently intends: a nested object or list that is
    absent or null reads as `{}` / `[]`, so the result has null leaves or empty
    lists instead of an error. Nothing else changes: a body that is not an
    object, or a nested value of the wrong kind, raises in both. The two
    differ only on bodies with a null nested object or list, and on such a
    body exactly when the corrected extraction finds nothing else wrong.

    The reference definition is `Path`: the value found by following a chain
    of keys, null as soon as a step is missing, null or not an object.
 */
module Reshaping {
  import opened Results
  import opened Json

  datatype TrackView = TrackView(
    name: Json,
    artists: seq<Json>,
    albumName: Json,
    images: Json,
    durationMs: Json,
    progressMs: Json,
    externalUrl: Json)

  datatype Playback = Playback(isPlaying: Json, track: TrackView)

  /** The JSON body the handler answers with */
  function PlaybackJson(p: Playback): Json {
    JObj([
      ("is_playing", p.isPlaying),
      ("track", JObj([
        ("name", p.track.name),
        ("artists", JArr(p.track.artists)),
        ("album", JObj([("name", p.track.albumName), ("images", p.track.images)])),
        ("duration_ms", p.track.durationMs),
        ("progress_ms", p.track.progressMs),
        ("external_url", p.track.externalUrl)]))])
  }

  /** The handler's expressions, as written. A body that is not an object
      raises, and so does one with a null nested object or list. */
  function ReshapeAsWritten(data: Json): (r: Result<Playback>)
    ensures !data.JObj? ==> r == Uncaught
    ensures HasNullContainer(data) ==> r == Uncaught
  {
    if !data.JObj? then Uncaught
    else
      var item := GetField(data.fields, "item", JObj([]));
      if !item.JObj? then Uncaught
      else
        var artistItems :- Iter(GetField(item.fields, "artists", JArr([])));
        var artists :- GetEach(artistItems, "name");
        var album := GetField(item.fields, "album", JObj([]));
        var urls := GetField(item.fields, "external_urls", JObj([]));
        if !album.JObj? || !urls.JObj? then Uncaught
        else
          Ok(Playback(
            GetField(data.fields, "is_playing", JBool(false)),
            TrackView(
              GetField(item.fields, "name", JNull),
              artists,
              GetField(album.fields, "name", JNull),
              GetField(album.fields, "images", JArr([])),
              GetField(item.fields, "duration_ms", JNull),
              GetField(data.fields, "progress_ms", JNull),
              GetField(urls.fields, "spotify", JNull))))
  }

  /** `d.get(key, default)` where a stored null also reads as the default: how
      the corrected handler reads a nested object or list */
  function GetOrDefault(fields: seq<(string, Json)>, key: string, default: Json): Json {
    var v := GetField(fields, key, default);
    if v == JNull then default else v
  }

  /** The extraction the handler intends: a nested object or list that is
      absent OR null reads as `{}` / `[]`. Everything else is read as written,
      so a body that is not an object, or a nested value of the wrong kind,
      still raises. */
  function Reshape(data: Json): (r: Result<Playback>)
    ensures !data.JObj? ==> r == Uncaught
  {
    if !data.JObj? then Uncaught
    else
      var item := GetOrDefault(data.fields, "item", JObj([]));
      if !item.JObj? then Uncaught
      else
        var artistItems :- Iter(GetOrDefault(item.fields, "artists", JArr([])));
        var artists :- GetEach(artistItems, "name");
        var album := GetOrDefault(item.fields, "album", JObj([]));
        var urls := GetOrDefault(item.fields, "external_urls", JObj([]));
        if !album.JObj? || !urls.JObj? then Uncaught
        else
          Ok(Playback(
            GetField(data.fields, "is_playing", JBool(false)),
            TrackView(
              GetField(item.fields, "name", JNull),
              artists,
              GetField(album.fields, "name", JNull),
              GetField(album.fields, "images", JArr([])),
              GetField(item.fields, "duration_ms", JNull),
              GetField(data.fields, "progress_ms", JNull),
              GetField(urls.fields, "spotify", JNull))))
  }

  // ---------------------------------------------------------------------------
  // Properties

  /** The scalar leaves of the corrected reshape are the values at their
      paths in the upstream body: null whenever any step is missing or null. */
  lemma ReshapeReadsPaths(data: Json)
    ensures Reshape(data).Ok? ==>
              var t := Reshape(data).value.track;
              && t.name == Path(data, ["item", "name"])
              && t.durationMs == Path(data, ["item", "duration_ms"])
              && t.albumName == Path(data, ["item", "album", "name"])
              && t.externalUrl == Path(data, ["item", "external_urls", "spotify"])
              && t.progressMs == Path(data, ["progress_ms"])
  {
    assert ["item", "name"][1..] == ["name"];
    assert ["item", "duration_ms"][1..] == ["duration_ms"];
    assert ["item", "album", "name"][1..] == ["album", "name"];
    assert ["album", "name"][1..] == ["name"];
    assert ["item", "external_urls", "spotify"][1..] == ["external_urls", "spotify"];
    assert ["external_urls", "spotify"][1..] == ["spotify"];
    assert ["progress_ms"][1..] == [];
    assert ["name"][1..] == [];
    assert ["spotify"][1..] == [];
    assert ["duration_ms"][1..] == [];
  }

  /** The artist names are the `name` of each element of the `artists` list,
      null for an element without one; no list gives no names. */
  lemma ReshapeArtists(data: Json)
    ensures Reshape(data).Ok? && Path(data, ["item", "artists"]).JArr? ==>
              var xs := Path(data, ["item", "artists"]).items;
              var names := Reshape(data).value.track.artists;
              |names| == |xs| && forall i :: 0 <= i < |xs| ==> names[i] == Path(xs[i], ["name"])
    ensures Reshape(data).Ok? && !Path(data, ["item", "artists"]).JArr? ==>
              Reshape(data).value.track.artists == []
  {
    assert ["item", "artists"][1..] == ["artists"];
    assert ["artists"][1..] == [];
    assert ["name"][1..] == [];
  }

  /** Missing fields take their defaults. `is_playing` reads as false when
      absent. With no item (absent or null) the answer always exists and has
      null names and no artists or images; with no album (absent or null) the
      album name is null and there are no images; within an album, absent
      `images` reads as an empty list. */
  lemma ReshapeDefaults(data: Json)
    ensures Reshape(data).Ok? ==>
              Reshape(data).value.isPlaying == Lookup(data.fields, "is_playing").GetOr(JBool(false))
    ensures data.JObj? && Path(data, ["item"]) == JNull ==>
              Reshape(data) == Ok(Playback(
                Lookup(data.fields, "is_playing").GetOr(JBool(false)),
                TrackView(JNull, [], JNull, JArr([]), JNull, Path(data, ["progress_ms"]), JNull)))
    ensures Reshape(data).Ok? && Path(data, ["item", "album"]) == JNull ==>
              Reshape(data).value.track.albumName == JNull && Reshape(data).value.track.images == JArr([])
    ensures Reshape(data).Ok? && Path(data, ["item", "album"]).JObj? ==>
              Reshape(data).value.track.images == Lookup(Path(data, ["item", "album"]).fields, "images").GetOr(JArr([]))
  {
    assert ["item"][1..] == [];
    assert ["progress_ms"][1..] == [];
    assert ["item", "album"][1..] == ["album"];
    assert ["album"][1..] == [];
  }

  /** A nested object or list the handler reads further is present with value null */
  ghost predicate HasNullContainer(data: Json) {
    data.JObj? &&
      (Lookup(data.fields, "item") == Some(JNull) ||
       (var item := GetField(data.fields, "item", JObj([]));
        item.JObj? &&
          (Lookup(item.fields, "album") == Some(JNull) ||
           Lookup(item.fields, "external_urls") == Some(JNull) ||
           Lookup(item.fields, "artists") == Some(JNull))))
  }

  /** The correction changes nothing the written handler already answers:
      whenever the written reshape succeeds, the corrected one gives the same. */
  lemma ReshapeAgrees(data: Json, p: Playback)
    requires ReshapeAsWritten(data) == Ok(p)
    ensures Reshape(data) == Ok(p)
  {
    assert !HasNullContainer(data) by {
      var item := GetField(data.fields, "item", JObj([]));
      assert item.JObj?;
    }
    ReshapeAgreesWithoutNulls(data);
  }

  /** The correction changes only bodies with a null nested object or list:
      on every other body the two extractions give the same outcome, an
      answer or an uncaught error alike. */
  lemma ReshapeAgreesWithoutNulls(data: Json)
    requires !HasNullContainer(data)
    ensures Reshape(data) == ReshapeAsWritten(data)
  {
    if data.JObj? {
      var item := GetField(data.fields, "item", JObj([]));
      assert GetOrDefault(data.fields, "item", JObj([])) == item;
      if item.JObj? {
        assert GetOrDefault(item.fields, "artists", JArr([])) == GetField(item.fields, "artists", JArr([]));
        assert GetOrDefault(item.fields, "album", JObj([])) == GetField(item.fields, "album", JObj([]));
        assert GetOrDefault(item.fields, "external_urls", JObj([])) == GetField(item.fields, "external_urls", JObj([]));
      }
    }
  }

  /** The two extractions differ exactly on the bodies with a null nested
      object or list that the corrected extraction answers. */
  lemma ReshapeDiffersIff(data: Json)
    ensures Reshape(data) != ReshapeAsWritten(data) <==> HasNullContainer(data) && Reshape(data).Ok?
  {
    if !HasNullContainer(data) {
      ReshapeAgreesWithoutNulls(data);
    }
  }

  /** The field is absent or an object */
  ghost predicate ObjectOrAbsent(fields: seq<(string, Json)>, key: string) {
    Lookup(fields, key).None? || Lookup(fields, key).value.JObj?
  }

  /** The field is absent or a list of objects */
  ghost predicate ObjectsOrAbsent(fields: seq<(string, Json)>, key: string) {
    Lookup(fields, key).None? ||
      (Lookup(fields, key).value.JArr? && forall x :: x in Lookup(fields, key).value.items ==> x.JObj?)
  }

  /** A playback state whose nested values have the expected kinds never makes
      the written reshape raise */
  lemma WellShapedReshapes(data: Json)
    requires data.JObj? && ObjectOrAbsent(data.fields, "item")
    requires var item := GetField(data.fields, "item", JObj([]));
             item.JObj? &&
             ObjectOrAbsent(item.fields, "album") && ObjectOrAbsent(item.fields, "external_urls") && ObjectsOrAbsent(item.fields, "artists")
    ensures ReshapeAsWritten(data).Ok?
  {
    var item := GetField(data.fields, "item", JObj([]));
    var xs := GetField(item.fields, "artists", JArr([]));
    assert forall i :: 0 <= i < |xs.items| ==> xs.items[i].JObj?;
  }

  /** The payload the upstream sends while nothing identifiable is playing */
  const NullItem: Json := JObj([("is_playing", JBool(true)), ("item", JNull)])

  /** As written, a present-but-null item raises; the corrected reshape answers
      with null leaves and keeps `is_playing`. */
  lemma NullItemRaises()
    ensures ReshapeAsWritten(NullItem) == Uncaught
    ensures Reshape(NullItem) == Ok(Playback(JBool(true), TrackView(JNull, [], JNull, JArr([]), JNull, JNull, JNull)))
  {
  }
}

=== FILE: results.dfy ===
/** How a step of the proxy's Python code turns out.
    An Option is a value that may be missing: a `None`, or a dictionary key that is
    not there. A Result is what evaluating handler code gives: the value it computes,
    or an exception that no `try` in the handler catches, so the web framework answers
    with its bare 500 page. A Result that is Uncaught stops a `:-` chain, as the
    exception stops the Python code at that line. */
module Results {

  datatype Option<+T> = None | Some(value: T) {

    /** The value, or `default` when there is none */
    function GetOr(default: T): T {
      match this
      case Some(v) => v
      case None => default
    }
  }

  datatype Result<+T> = Ok(value: T) | Uncaught {

    predicate IsFailure() {
      Uncaught?
    }

    function PropagateFailure<U>(): Result<U>
      requires Uncaught?
    {
      Uncaught
    }

    function Extract(): T
      requires Ok?
    {
      value
    }
  }

  /** Applies `f` to every element in order; the first failure fails the whole
      (a list comprehension or loop whose body may raise). */
  function MapAll<A, B>(xs: seq<A>, f: A -> Result<B>): (r: Result<seq<B>>)
    ensures r.Ok? <==> forall i :: 0 <= i < |xs| ==> f(xs[i]).Ok?
    ensures r.Ok? ==> |r.value| == |xs|
    ensures r.Ok? ==> forall i :: 0 <= i < |xs| ==> f(xs[i]) == Ok(r.value[i])
    decreases |xs|
  {
    if |xs| == 0 then Ok([])
    else
      var init :- MapAll(xs[..|xs| - 1], f);
      var last :- f(xs[|xs| - 1]);
      Ok(init + [last])
  }
}

=== FILE: stable_sort.dfy ===
/** Sorting by a key in descending order, stably, and keeping the first n:
    what `xs.sort(key=..., reverse=True)` (or `sorted(...)`) followed by `[:n]`
    does in Python. Python's sort is stable and `reverse=True` keeps equal
    elements in their original order, so elements with equal keys come out in
    input order.

    The implementation is an insertion sort over sequences; the reference is
    `IsStableSortOf`: the output is non-increasing and, for every key value,
    the elements carrying that key form the same subsequence as in the input.
 */
module StableSort {

  /** Insert `x` after every element whose key is at least `key(x)` */
  function InsertDesc<T>(ys: seq<T>, x: T, key: T -> int): seq<T>
    decreases |ys|
  {
    if |ys| == 0 then [x]
    else if key(ys[0]) >= key(x) then [ys[0]] + InsertDesc(ys[1..], x, key)
    else [x] + ys
  }

  function SortDesc<T>(xs: seq<T>, key: T -> int): seq<T>
    decreases |xs|
  {
    if |xs| == 0 then []
    else InsertDesc(SortDesc(xs[..|xs| - 1], key), xs[|xs| - 1], key)
  }

  /** The first `n` elements of the stable descending sort */
  function Top<T>(xs: seq<T>, key: T -> int, n: nat): seq<T> {
    var s := SortDesc(xs, key);
    s[..if |s| < n then |s| else n]
  }

  ghost predicate NonIncreasing<T>(s: seq<T>, key: T -> int) {
    forall i, j :: 0 <= i < j < |s| ==> key(s[i]) >= key(s[j])
  }

  /** The subsequence of elements whose key is `c` */
  ghost function WithKey<T>(s: seq<T>, key: T -> int, c: int): seq<T>
    decreases |s|
  {
    if |s| == 0 then []
    else (if key(s[0]) == c then [s[0]] else []) + WithKey(s[1..], key, c)
  }

  /** `out` is a stable descending sort of `xs` */
  ghost predicate IsStableSortOf<T>(out: seq<T>, xs: seq<T>, key: T -> int) {
    && NonIncreasing(out, key)
    && forall c :: WithKey(out, key, c) == WithKey(xs, key, c)
  }

  /** Elements with equal keys are ordered by increasing rank */
  ghost predicate TiesByRank<T>(s: seq<T>, key: T -> int, rank: T -> int) {
    forall i, j :: 0 <= i < j < |s| && key(s[i]) == key(s[j]) ==> rank(s[i]) < rank(s[j])
  }

  function SumOf<T>(s: seq<T>, key: T -> int): int
    decreases |s|
  {
    if |s| == 0 then 0 else key(s[0]) + SumOf(s[1..], key)
  }

  lemma InsertDescPermutes<T>(ys: seq<T>, x: T, key: T -> int)
    ensures multiset(InsertDesc(ys, x, key)) == multiset(ys) + multiset{x}
    decreases |ys|
  {
    if |ys| > 0 && key(ys[0]) >= key(x) {
      InsertDescPermutes(ys[1..], x, key);
      assert ys == [ys[0]] + ys[1..];
    }
  }

  lemma InsertDescSorted<T>(ys: seq<T>, x: T, key: T -> int)
    requires NonIncreasing(ys, key)
    ensures NonIncreasing(InsertDesc(ys, x, key), key)
    decreases |ys|
  {
    if |ys| > 0 && key(ys[0]) >= key(x) {
      var rest := InsertDesc(ys[1..], x, key);
      var r := [ys[0]] + rest;
      assert NonIncreasing(ys[1..], key);
      InsertDescSorted(ys[1..], x, key);
      forall j | 0 <= j < |rest| ensures key(ys[0]) >= key(rest[j]) {
        InsertDescMember(ys[1..], x, key, rest[j]);
        if rest[j] != x {
          var k :| 0 <= k < |ys[1..]| && ys[1..][k] == rest[j];
          assert ys[k + 1] == rest[j];
        }
      }
      forall i, j | 0 <= i < j < |r| ensures key(r[i]) >= key(r[j]) {
        assert r[j] == rest[j - 1];
        if i > 0 {
          assert r[i] == rest[i - 1];
        }
      }
      assert InsertDesc(ys, x, key) == r;
    }
  }

  lemma WithKeyAppend<T>(a: seq<T>, b: seq<T>, key: T -> int, c: int)
    ensures WithKey(a + b, key, c) == WithKey(a, key, c) + WithKey(b, key, c)
    decreases |a|
  {
    if |a| > 0 {
      var h := if key(a[0]) == c then [a[0]] else [];
      assert (a + b)[0] == a[0];
      assert (a + b)[1..] == a[1..] + b;
      WithKeyAppend(a[1..], b, key, c);
      calc {
        WithKey(a + b, key, c);
        h + WithKey(a[1..] + b, key, c);
        h + (WithKey(a[1..], key, c) + WithKey(b, key, c));
        (h + WithKey(a[1..], key, c)) + WithKey(b, key, c);
        WithKey(a, key, c) + WithKey(b, key, c);
      }
    } else {
      assert a + b == b;
    }
  }

  lemma WithKeyAbsent<T>(s: seq<T>, key: T -> int, c: int)
    requires forall i :: 0 <= i < |s| ==> key(s[i]) < c
    ensures WithKey(s, key, c) == []
    decreases |s|
  {
    if |s| > 0 {
      WithKeyAbsent(s[1..], key, c);
    }
  }

  lemma InsertDescWithKey<T>(ys: seq<T>, x: T, key: T -> int, c: int)
    requires NonIncreasing(ys, key)
    ensures WithKey(InsertDesc(ys, x, key), key, c) == WithKey(ys, key, c) + WithKey([x], key, c)
    decreases |ys|
  {
    var r := InsertDesc(ys, x, key);
    WithKeySingle(x, key, c);
    if |ys| == 0 {
      assert r == [x];
    } else if key(ys[0]) >= key(x) {
      assert NonIncreasing(ys[1..], key);
      InsertDescWithKey(ys[1..], x, key, c);
      assert r[0] == ys[0] && r[1..] == InsertDesc(ys[1..], x, key);
    } else {
      assert r[0] == x && r[1..] == ys;
      if key(x) == c {
        WithKeyAbsent(ys, key, c);
      }
    }
  }

  lemma WithKeySingle<T>(x: T, key: T -> int, c: int)
    ensures WithKey([x], key, c) == if key(x) == c then [x] else []
  {
    assert [x][1..] == [];
  }

  /** The insertion sort meets the reference: it is a stable descending sort */
  lemma {:induction false} SortDescIsStableSort<T>(xs: seq<T>, key: T -> int)
    ensures IsStableSortOf(SortDesc(xs, key), xs, key)
    decreases |xs|
  {
    if |xs| > 0 {
      var pre := xs[..|xs| - 1];
      var x := xs[|xs| - 1];
      assert xs == pre + [x];
      SortDescIsStableSort(pre, key);
      InsertDescSorted(SortDesc(pre, key), x, key);
      forall c ensures WithKey(SortDesc(xs, key), key, c) == WithKey(xs, key, c) {
        InsertDescWithKey(SortDesc(pre, key), x, key, c);
        WithKeyAppend(pre, [x], key, c);
      }
    }
  }

  /** The sort is a permutation of its input */
  lemma {:induction false} SortDescPermutes<T>(xs: seq<T>, key: T -> int)
    ensures multiset(SortDesc(xs, key)) == multiset(xs)
    ensures |SortDesc(xs, key)| == |xs|
    decreases |xs|
  {
    if |xs| > 0 {
      var pre := xs[..|xs| - 1];
      assert xs == pre + [xs[|xs| - 1]];
      SortDescPermutes(pre, key);
      InsertDescPermutes(SortDesc(pre, key), xs[|xs| - 1], key);
    }
    assert |multiset(SortDesc(xs, key))| == |SortDesc(xs, key)|;
  }

  lemma WithKeyHead<T>(s: seq<T>, key: T -> int, c: int)
    requires WithKey(s, key, c) != []
    ensures exists i :: 0 <= i < |s| && key(s[i]) == c
    decreases |s|
  {
    if key(s[0]) != c {
      WithKeyHead(s[1..], key, c);
      var i :| 0 <= i < |s[1..]| && key(s[1..][i]) == c;
      assert s[i + 1] == s[1..][i];
    }
  }

  lemma WithKeyOfFirst<T>(s: seq<T>, key: T -> int)
    requires |s| > 0
    ensures WithKey(s, key, key(s[0])) != []
  {
  }

  /** Two stable sorts of the same input start with the same element */
  lemma StableSortsSameHead<T>(a: seq<T>, b: seq<T>, xs: seq<T>, key: T -> int)
    requires IsStableSortOf(a, xs, key) && IsStableSortOf(b, xs, key)
    requires |a| > 0 && |b| > 0
    ensures a[0] == b[0]
  {
    var ka, kb := key(a[0]), key(b[0]);
    WithKeyOfFirst(a, key);
    assert WithKey(b, key, ka) == WithKey(xs, key, ka) == WithKey(a, key, ka);
    WithKeyHead(b, key, ka);
    WithKeyOfFirst(b, key);
    assert WithKey(a, key, kb) == WithKey(xs, key, kb) == WithKey(b, key, kb);
    WithKeyHead(a, key, kb);
    assert ka == kb;
    assert a[0] == WithKey(a, key, ka)[0] == WithKey(b, key, ka)[0] == b[0];
  }

  /** Dropping a common first element keeps the per-key subsequences equal */
  lemma WithKeyTails<T>(a: seq<T>, b: seq<T>, key: T -> int, c: int)
    requires |a| > 0 && |b| > 0 && a[0] == b[0]
    requires WithKey(a, key, c) == WithKey(b, key, c)
    ensures WithKey(a[1..], key, c) == WithKey(b[1..], key, c)
  {
    var h := if key(a[0]) == c then [a[0]] else [];
    assert WithKey(a, key, c) == h + WithKey(a[1..], key, c);
    assert WithKey(b, key, c) == h + WithKey(b[1..], key, c);
    assert WithKey(a[1..], key, c) == (h + WithKey(a[1..], key, c))[|h|..];
    assert WithKey(b[1..], key, c) == (h + WithKey(b[1..], key, c))[|h|..];
  }

  /** The reference pins the output down: two stable descending sorts of the
      same input are equal. */
  lemma {:induction false} StableSortIsUnique<T>(a: seq<T>, b: seq<T>, xs: seq<T>, key: T -> int)
    requires IsStableSortOf(a, xs, key) && IsStableSortOf(b, xs, key)
    ensures a == b
    decreases |a|
  {
    if |a| == 0 && |b| > 0 {
      WithKeyOfFirst(b, key);
    } else if |a| > 0 && |b| == 0 {
      WithKeyOfFirst(a, key);
    } else if |a| > 0 {
      StableSortsSameHead(a, b, xs, key);
      forall c ensures WithKey(a[1..], key, c) == WithKey(b[1..], key, c) {
        WithKeyTails(a, b, key, c);
      }
      assert IsStableSortOf(b[1..], a[1..], key);
      assert IsStableSortOf(a[1..], a[1..], key);
      StableSortIsUnique(a[1..], b[1..], a[1..], key);
      assert a == [a[0]] + a[1..];
      assert b == [b[0]] + b[1..];
    }
  }

  lemma InsertDescMember<T>(ys: seq<T>, x: T, key: T -> int, z: T)
    requires z in InsertDesc(ys, x, key)
    ensures z == x || z in ys
  {
    InsertDescPermutes(ys, x, key);
    assert z in multiset(ys) + multiset{x};
  }

  /** The head of `ys` ranks before every tie among the rest with `x` inserted */
  lemma HeadRanksFirst<T>(ys: seq<T>, x: T, key: T -> int, rank: T -> int, z: T)
    requires |ys| > 0
    requires TiesByRank(ys, key, rank)
    requires forall i :: 0 <= i < |ys| ==> rank(ys[i]) < rank(x)
    requires z in InsertDesc(ys[1..], x, key) && key(ys[0]) == key(z)
    ensures rank(ys[0]) < rank(z)
  {
    InsertDescMember(ys[1..], x, key, z);
    if z != x {
      var k :| 0 <= k < |ys[1..]| && ys[1..][k] == z;
      assert ys[k + 1] == z;
    }
  }

  lemma InsertDescTiesBehind<T>(ys: seq<T>, x: T, key: T -> int, rank: T -> int)
    requires |ys| > 0 && key(ys[0]) >= key(x)
    requires TiesByRank(ys, key, rank)
    requires forall i :: 0 <= i < |ys| ==> rank(ys[i]) < rank(x)
    requires TiesByRank(InsertDesc(ys[1..], x, key), key, rank)
    ensures TiesByRank(InsertDesc(ys, x, key), key, rank)
  {
    var rest := InsertDesc(ys[1..], x, key);
    var r := [ys[0]] + rest;
    assert InsertDesc(ys, x, key) == r;
    forall j | 0 < j < |r| && key(r[0]) == key(r[j]) ensures rank(r[0]) < rank(r[j]) {
      assert r[j] == rest[j - 1];
      HeadRanksFirst(ys, x, key, rank, rest[j - 1]);
    }
    forall i, j | 0 < i < j < |r| && key(r[i]) == key(r[j]) ensures rank(r[i]) < rank(r[j]) {
      assert r[i] == rest[i - 1] && r[j] == rest[j - 1];
    }
  }

  lemma InsertDescTiesFront<T>(ys: seq<T>, x: T, key: T -> int, rank: T -> int)
    requires |ys| > 0 && key(ys[0]) < key(x)
    requires TiesByRank(ys, key, rank)
    requires NonIncreasing(ys, key)
    ensures TiesByRank(InsertDesc(ys, x, key), key, rank)
  {
    var r := [x] + ys;
    assert InsertDesc(ys, x, key) == r;
    forall j | 0 < j < |r| ensures key(r[0]) != key(r[j]) {
      assert r[j] == ys[j - 1];
      assert key(ys[0]) >= key(ys[j - 1]);
    }
    forall i, j | 0 < i < j < |r| && key(r[i]) == key(r[j]) ensures rank(r[i]) < rank(r[j]) {
      assert r[i] == ys[i - 1] && r[j] == ys[j - 1];
    }
  }

  lemma InsertDescTies<T>(ys: seq<T>, x: T, key: T -> int, rank: T -> int)
    requires TiesByRank(ys, key, rank)
    requires forall i :: 0 <= i < |ys| ==> rank(ys[i]) < rank(x)
    requires NonIncreasing(ys, key)
    ensures TiesByRank(InsertDesc(ys, x, key), key, rank)
    decreases |ys|
  {
    if |ys| > 0 {
      if key(ys[0]) >= key(x) {
        InsertDescTies(ys[1..], x, key, rank);
        InsertDescTiesBehind(ys, x, key, rank);
      } else {
        InsertDescTiesFront(ys, x, key, rank);
      }
    }
  }

  /** Ties keep input order: when the input is ordered by increasing rank,
      equal-key elements of the output are too. */
  lemma {:induction false} SortDescKeepsTieOrder<T>(xs: seq<T>, key: T -> int, rank: T -> int)
    requires forall i, j :: 0 <= i < j < |xs| ==> rank(xs[i]) < rank(xs[j])
    ensures TiesByRank(SortDesc(xs, key), key, rank)
    decreases |xs|
  {
    if |xs| > 0 {
      var pre := xs[..|xs| - 1];
      var x := xs[|xs| - 1];
      var s := SortDesc(pre, key);
      SortDescKeepsTieOrder(pre, key, rank);
      SortDescIsStableSort(pre, key);
      SortDescPermutes(pre, key);
      forall i | 0 <= i < |s| ensures rank(s[i]) < rank(x) {
        assert s[i] in multiset(pre);
        var k :| 0 <= k < |pre| && pre[k] == s[i];
        assert xs[k] == pre[k];
      }
      InsertDescTies(s, x, key, rank);
    }
  }

  lemma SumOfAppend<T>(a: seq<T>, b: seq<T>, key: T -> int)
    ensures SumOf(a + b, key) == SumOf(a, key) + SumOf(b, key)
    decreases |a|
  {
    if |a| > 0 {
      assert (a + b)[0] == a[0];
      assert (a + b)[1..] == a[1..] + b;
      SumOfAppend(a[1..], b, key);
      assert SumOf(a + b, key) == key(a[0]) + SumOf(a[1..] + b, key);
    } else {
      assert a + b == b;
    }
  }

  lemma InsertDescSum<T>(ys: seq<T>, x: T, key: T -> int)
    ensures SumOf(InsertDesc(ys, x, key), key) == SumOf(ys, key) + key(x)
    decreases |ys|
  {
    if |ys| > 0 && key(ys[0]) >= key(x) {
      InsertDescSum(ys[1..], x, key);
    }
  }

  /** Sorting does not change the total of the keys */
  lemma {:induction false} SortDescKeepsSum<T>(xs: seq<T>, key: T -> int)
    ensures SumOf(SortDesc(xs, key), key) == SumOf(xs, key)
    decreases |xs|
  {
    if |xs| > 0 {
      var pre := xs[..|xs| - 1];
      assert xs == pre + [xs[|xs| - 1]];
      SortDescKeepsSum(pre, key);
      InsertDescSum(SortDesc(pre, key), xs[|xs| - 1], key);
      SumOfAppend(pre, [xs[|xs| - 1]], key);
    }
  }

  lemma SumOfPrefix<T>(s: seq<T>, n: nat, key: T -> int)
    requires n <= |s|
    requires forall i :: 0 <= i < |s| ==> key(s[i]) >= 0
    ensures SumOf(s[..n], key) <= SumOf(s, key)
  {
    assert s == s[..n] + s[n..];
    SumOfAppend(s[..n], s[n..], key);
    SumOfNonNegative(s[n..], key);
  }

  lemma SumOfNonNegative<T>(s: seq<T>, key: T -> int)
    requires forall i :: 0 <= i < |s| ==> key(s[i]) >= 0
    ensures SumOf(s, key) >= 0
    decreases |s|
  {
    if |s| > 0 {
      SumOfNonNegative(s[1..], key);
    }
  }

  /** Keeping the first n leaves min(n, |xs|) elements, a prefix of the sort */
  lemma TopLength<T>(xs: seq<T>, key: T -> int, n: nat)
    ensures |Top(xs, key, n)| == if |xs| < n then |xs| else n
    ensures Top(xs, key, n) <= SortDesc(xs, key)
  {
    SortDescPermutes(xs, key);
  }

  /** The kept elements are non-increasing by key */
  lemma TopSorted<T>(xs: seq<T>, key: T -> int, n: nat)
    ensures NonIncreasing(Top(xs, key, n), key)
  {
    SortDescIsStableSort(xs, key);
  }

  /** Every kept element comes from the input */
  lemma TopFromInput<T>(xs: seq<T>, key: T -> int, n: nat, i: nat)
    requires i < |Top(xs, key, n)|
    ensures Top(xs, key, n)[i] in xs
  {
    SortDescPermutes(xs, key);
    var s := SortDesc(xs, key);
    assert Top(xs, key, n)[i] == s[i];
    assert s[i] in multiset(xs);
  }

  /** An input element left out has a key no larger than any kept element's */
  lemma TopLeftOutIsSmaller<T>(xs: seq<T>, key: T -> int, n: nat, y: T, i: nat)
    requires y in xs && y !in Top(xs, key, n)
    requires i < |Top(xs, key, n)|
    ensures key(y) <= key(Top(xs, key, n)[i])
  {
    var s := SortDesc(xs, key);
    var t := Top(xs, key, n);
    SortDescPermutes(xs, key);
    SortDescIsStableSort(xs, key);
    assert y in multiset(s);
    var j :| 0 <= j < |s| && s[j] == y;
    assert t[i] == s[i];
  }

  /** Among equal keys the slice keeps the earliest: when the input is ordered
      by increasing rank, an input element left out whose key ties with a kept
      element's ranks after it. */
  lemma TopLeftOutTie<T>(xs: seq<T>, key: T -> int, n: nat, rank: T -> int, y: T, i: nat)
    requires forall a, b :: 0 <= a < b < |xs| ==> rank(xs[a]) < rank(xs[b])
    requires y in xs && y !in Top(xs, key, n)
    requires i < |Top(xs, key, n)|
    requires key(y) == key(Top(xs, key, n)[i])
    ensures rank(Top(xs, key, n)[i]) < rank(y)
  {
    var s := SortDesc(xs, key);
    var t := Top(xs, key, n);
    SortDescPermutes(xs, key);
    SortDescKeepsTieOrder(xs, key, rank);
    assert y in multiset(s);
    var j :| 0 <= j < |s| && s[j] == y;
    assert forall k :: 0 <= k < |t| ==> t[k] == s[k];
    assert i < j;
  }

  /** With non-negative keys, the kept keys add up to at most the input's total */
  lemma TopSum<T>(xs: seq<T>, key: T -> int, n: nat)
    requires forall i :: 0 <= i < |xs| ==> key(xs[i]) >= 0
    ensures SumOf(Top(xs, key, n), key) <= SumOf(xs, key)
  {
    var s := SortDesc(xs, key);
    SortDescPermutes(xs, key);
    forall i | 0 <= i < |s| ensures key(s[i]) >= 0 {
      assert s[i] in multiset(xs);
    }
    SumOfPrefix(s, |Top(xs, key, n)|, key);
    SortDescKeepsSum(xs, key);
  }

  /** An element found at two positions is counted twice */
  lemma TwiceCounted<T>(s: seq<T>, i: nat, j: nat)
    requires i < j < |s| && s[i] == s[j]
    ensures multiset(s)[s[i]] >= 2
  {
    assert s == s[..j] + [s[j]] + s[j + 1..];
    assert s[..j][i] == s[i];
    assert multiset(s[..j])[s[i]] >= 1;
  }

  /** Under an injective labelling, every element occurs once */
  lemma OccursOnce<T, L>(xs: seq<T>, id: T -> L, a: nat)
    requires forall x, y :: 0 <= x < y < |xs| ==> id(xs[x]) != id(xs[y])
    requires a < |xs|
    ensures multiset(xs)[xs[a]] == 1
  {
    var v := xs[a];
    assert xs == xs[..a] + [v] + xs[a + 1..];
    assert v !in xs[..a];
    assert v !in xs[a + 1..];
  }

  /** Keeping the first n preserves an injective labelling: when no two input
      elements share a label, no two kept elements do. */
  lemma TopKeepsDistinct<T, L>(xs: seq<T>, key: T -> int, n: nat, id: T -> L, i: nat, j: nat)
    requires forall a, b :: 0 <= a < b < |xs| ==> id(xs[a]) != id(xs[b])
    requires i < j < |Top(xs, key, n)|
    ensures id(Top(xs, key, n)[i]) != id(Top(xs, key, n)[j])
  {
    var s := SortDesc(xs, key);
    SortDescPermutes(xs, key);
    assert Top(xs, key, n)[i] == s[i] && Top(xs, key, n)[j] == s[j];
    assert s[i] in multiset(xs);
    var a :| 0 <= a < |xs| && xs[a] == s[i];
    assert s[j] in multiset(xs);
    var b :| 0 <= b < |xs| && xs[b] == s[j];
    if a == b {
      OccursOnce(xs, id, a);
      TwiceCounted(s, i, j);
    }
  }

  /** Keeping the first n keeps tie order: when the input is ordered by
      increasing rank, kept elements with equal keys are too. */
  lemma TopKeepsTieOrder<T>(xs: seq<T>, key: T -> int, n: nat, rank: T -> int, i: nat, j: nat)
    requires forall a, b :: 0 <= a < b < |xs| ==> rank(xs[a]) < rank(xs[b])
    requires i < j < |Top(xs, key, n)|
    requires key(Top(xs, key, n)[i]) == key(Top(xs, key, n)[j])
    ensures rank(Top(xs, key, n)[i]) < rank(Top(xs, key, n)[j])
  {
    var s := SortDesc(xs, key);
    SortDescKeepsTieOrder(xs, key, rank);
    assert Top(xs, key, n)[i] == s[i] && Top(xs, key, n)[j] == s[j];
  }
}

=== FILE: tokens.dfy ===
/** The token check at the start of `callback`: the authorization code has
    been exchanged, and the token response is read and validated before any
    further request is made. */
module Tokens {
  import opened Results
  import opened Json
  import opened Handlers

  /** The tokens the callback goes on with */
  datatype TokenSet = TokenSet(accessToken: Json, refreshToken: Json, expiresIn: Json)

  /** Lifetime assumed when the token response gives none, in seconds */
  const DefaultExpiry: int := 3600

  const FailedTokens: string := "Failed to retrieve tokens"

  /** A field that is absent or falsy */
  predicate Missing(fields: seq<(string, Json)>, key: string) {
    Lookup(fields, key).None? || !Truthy(Lookup(fields, key).value)
  }

  /** `raise_for_status()`, `response.json()`, then the three `.get`s and the
      check that both tokens are truthy. A failing status or an undecodable
      body is a 500 whatever the content, and a decodable body that is not an
      object is not caught. A readable token response is refused with 400
      "Failed to retrieve tokens" exactly when either token is absent or
      falsy; otherwise the callback goes on with those tokens and with the
      given lifetime, or 3600 seconds when none is given. */
  function ExchangeTokens(u: Upstream): (r: Response<TokenSet>)
    ensures RaisesForStatus(u.status) || u.body.None? ==> r == Refuse(500, ErrorText("Error exchanging token: "))
    ensures !RaisesForStatus(u.status) && u.body.Some? && !u.body.value.JObj? ==> r == Unhandled
    ensures !RaisesForStatus(u.status) && u.body.Some? && u.body.value.JObj? ==>
              (r == Refuse(400, Message("Failed to retrieve tokens")) <==>
                 Missing(u.body.value.fields, "access_token") || Missing(u.body.value.fields, "refresh_token"))
    ensures r.Reply? <==>
              && !RaisesForStatus(u.status)
              && u.body.Some? && u.body.value.JObj?
              && !Missing(u.body.value.fields, "access_token")
              && !Missing(u.body.value.fields, "refresh_token")
    ensures r.Reply? ==>
              var fields := u.body.value.fields;
              && r.value.accessToken == Lookup(fields, "access_token").value
              && r.value.refreshToken == Lookup(fields, "refresh_token").value
              && (Lookup(fields, "expires_in").None? ==> r.value.expiresIn == JNum(3600))
              && (Lookup(fields, "expires_in").Some? ==> r.value.expiresIn == Lookup(fields, "expires_in").value)
  {
    if RaisesForStatus(u.status) || u.body.None? then Refuse(500, ErrorText("Error exchanging token: "))
    else
      var data := u.body.value;
      if !data.JObj? then Unhandled
      else
        var access := GetField(data.fields, "access_token", JNull);
        var refresh := GetField(data.fields, "refresh_token", JNull);
        var expires := GetField(data.fields, "expires_in", JNum(DefaultExpiry));
        if !Truthy(access) || !Truthy(refresh) then Refuse(400, Message(FailedTokens))
        else Reply(TokenSet(access, refresh, expires))
  }

  /** An empty access token is rejected even when the refresh token is fine */
  lemma EmptyAccessTokenRejected()
    ensures ExchangeTokens(Upstream(200, Some(JObj([("access_token", JStr("")), ("refresh_token", JStr("r"))]))))
              == Refuse(400, Message("Failed to retrieve tokens"))
  {
  }
}

=== FILE: top_albums.dfy ===
/** `get_top_albums`: one pass over a top-tracks listing that groups the tracks
    by album id in an insertion-ordered map, counting them and recording each
    track's name and popularity; then a stable sort by count, descending, and
    the first ten albums.

    The reference definitions at the top (`AlbumIdOf`, `TracksWithId`,
    `AlbumIds`, `SeenBefore`) read the raw track list directly; the lemmas at
    the bottom relate the loop's result to them.
 */
module TopAlbums {
  import opened Results
  import opened Json
  import opened OrderedGroups
  import opened StableSort

  /** How many albums the listing keeps */
  const Limit: nat := 10

  /** The `{name, popularity}` record kept for each track */
  datatype TrackRef = TrackRef(name: Json, popularity: Json)

  /** One track of an album: the album object as that track carries it, and the track's record */
  datatype Occurrence = Occurrence(album: Json, track: TrackRef)

  /** The album fields copied from the first track of an album */
  datatype AlbumInfo = AlbumInfo(
    name: Json,
    artists: seq<Json>,
    images: Json,
    releaseDate: Json,
    totalTracks: Json,
    externalUrl: Json)

  /** One element of the result: the album's id and fields, how many tracks
      name it and their records in input order */
  datatype AlbumSummary = AlbumSummary(id: Json, info: AlbumInfo, count: nat, tracks: seq<TrackRef>)

  /** The sort key */
  function Count(a: AlbumSummary): int {
    a.count
  }

  /** The key a summary is filed under */
  function IdOf(a: AlbumSummary): Json {
    a.id
  }

  /** The album object of a track, `{}` when the track has none */
  function AlbumOf(track: Json): Json {
    if track.JObj? then Lookup(track.fields, "album").GetOr(JObj([])) else JObj([])
  }

  /** The album id a track carries; null when there is none */
  function AlbumIdOf(track: Json): Json {
    FieldOf(AlbumOf(track), "id")
  }

  function TrackRefOf(track: Json): TrackRef {
    TrackRef(FieldOf(track, "name"), FieldOf(track, "popularity"))
  }

  /** The records of the tracks carrying album id `id`, in input order */
  ghost function TracksWithId(tracks: seq<Json>, id: Json): seq<TrackRef>
    decreases |tracks|
  {
    if |tracks| == 0 then []
    else
      var t := tracks[|tracks| - 1];
      TracksWithId(tracks[..|tracks| - 1], id) + (if AlbumIdOf(t) == id then [TrackRefOf(t)] else [])
  }

  /** The distinct album ids the listing mentions (falsy ids do not count) */
  ghost function AlbumIds(tracks: seq<Json>): set<Json> {
    set i | 0 <= i < |tracks| && Truthy(AlbumIdOf(tracks[i])) :: AlbumIdOf(tracks[i])
  }

  /** Album `a` appears in the listing before album `b` first appears */
  ghost predicate SeenBefore(tracks: seq<Json>, a: Json, b: Json) {
    exists p :: 0 <= p < |tracks| && AlbumIdOf(tracks[p]) == a &&
      forall q :: 0 <= q <= p ==> AlbumIdOf(tracks[q]) != b
  }

  /** Reading one track in the loop: `track.get('album', {})`, `album.get('id')`;
      a falsy id skips the track (None); an id that cannot be a dict key raises. */
  function ReadTrack(track: Json): (r: Result<Option<(Json, Occurrence)>>)
    ensures r.Ok? ==> track.JObj? && AlbumOf(track).JObj?
    ensures track.JObj? && AlbumOf(track).JObj? && (Truthy(AlbumIdOf(track)) ==> Hashable(AlbumIdOf(track))) ==> r.Ok?
    ensures track.JObj? && AlbumOf(track).JObj? && Truthy(AlbumIdOf(track)) && !Hashable(AlbumIdOf(track)) ==> r == Uncaught
    ensures r.Ok? ==> (r.value.Some? <==> Truthy(AlbumIdOf(track)))
    ensures r.Ok? && r.value.Some? ==>
              r.value.value == (AlbumIdOf(track), Occurrence(AlbumOf(track), TrackRefOf(track)))
  {
    if !track.JObj? then Uncaught
    else
      var album := GetField(track.fields, "album", JObj([]));
      if !album.JObj? then Uncaught
      else
        var id := GetField(album.fields, "id", JNull);
        if !Truthy(id) then Ok(None)
        else if !Hashable(id) then Uncaught
        else
          var record := TrackRef(GetField(track.fields, "name", JNull), GetField(track.fields, "popularity", JNull));
          Ok(Some((id, Occurrence(album, record))))
  }

  /** The loop's reading of every track, one entry per track */
  function ReadTracks(tracks: seq<Json>): Result<seq<Option<(Json, Occurrence)>>> {
    MapAll(tracks, ReadTrack)
  }

  function TrackRefs(os: seq<Occurrence>): (r: seq<TrackRef>)
    ensures |r| == |os| && forall i :: 0 <= i < |os| ==> r[i] == os[i].track
  {
    seq(|os|, i requires 0 <= i < |os| => os[i].track)
  }

  /** The album fields the loop copies when it first meets an album:
      `name`, the `name` of each of `artists`, `images`, `release_date`,
      `total_tracks` and `external_urls.spotify`. */
  function ReadAlbum(album: Json): (r: Result<AlbumInfo>)
    ensures !album.JObj? ==> r == Uncaught
    ensures r.Ok? ==>
              && r.value.name == FieldOf(album, "name")
              && r.value.images == Lookup(album.fields, "images").GetOr(JArr([]))
              && r.value.releaseDate == FieldOf(album, "release_date")
              && r.value.totalTracks == FieldOf(album, "total_tracks")
              && r.value.externalUrl == FieldOf(FieldOf(album, "external_urls"), "spotify")
    ensures r.Ok? && Lookup(album.fields, "artists").None? ==> r.value.artists == []
    ensures r.Ok? && FieldOf(album, "artists").JArr? ==>
              var xs := FieldOf(album, "artists").items;
              |r.value.artists| == |xs| && forall i :: 0 <= i < |xs| ==> r.value.artists[i] == FieldOf(xs[i], "name")
  {
    if !album.JObj? then Uncaught
    else
      var fields := album.fields;
      var artistItems :- Iter(GetField(fields, "artists", JArr([])));
      var artists :- GetEach(artistItems, "name");
      var urls := GetField(fields, "external_urls", JObj([]));
      if !urls.JObj? then Uncaught
      else
        Ok(AlbumInfo(
          GetField(fields, "name", JNull),
          artists,
          GetField(fields, "images", JArr([])),
          GetField(fields, "release_date", JNull),
          GetField(fields, "total_tracks", JNull),
          GetField(urls.fields, "spotify", JNull)))
  }

  /** The entry the loop creates when it first meets an album, completed with
      the count and track records; the album's fields come from its first track. */
  function Summarize(g: Group<Json, Occurrence>): (r: Result<AlbumSummary>)
    ensures r.Ok? <==> |g.members| > 0 && ReadAlbum(g.members[0].album).Ok?
    ensures r.Ok? ==> r.value.id == g.key && r.value.count == |g.members|
    ensures r.Ok? ==> r.value.tracks == TrackRefs(g.members)
    ensures r.Ok? ==> ReadAlbum(g.members[0].album) == Ok(r.value.info)
  {
    var first :- if |g.members| > 0 then Ok(g.members[0]) else Uncaught;
    var info :- ReadAlbum(first.album);
    Ok(AlbumSummary(g.key, info, |g.members|, TrackRefs(g.members)))
  }

  function SummarizeAll(gs: seq<Group<Json, Occurrence>>): Result<seq<AlbumSummary>> {
    MapAll(gs, Summarize)
  }

  /** The aggregation over the list of tracks: at most ten albums */
  function TopAlbumsOf(tracks: seq<Json>): (r: Result<seq<AlbumSummary>>)
    ensures r.Ok? ==> |r.value| <= Limit
  {
    var entries :- ReadTracks(tracks);
    var summaries :- SummarizeAll(GroupBy(entries));
    Ok(Top(summaries, Count, Limit))
  }

  /** `get_top_albums(tracks_data)`: the tracks are `tracks_data.get('items', [])` */
  function GetTopAlbums(tracksData: Json): (r: Result<seq<AlbumSummary>>)
    ensures !tracksData.JObj? ==> r == Uncaught
    ensures tracksData.JObj? && Lookup(tracksData.fields, "items").None? ==> r == Ok([])
    ensures tracksData.JObj? && Lookup(tracksData.fields, "items") == Some(JArr([])) ==> r == Ok([])
    ensures tracksData.JObj? && Lookup(tracksData.fields, "items") == Some(JNull) ==> r == Uncaught
    ensures tracksData.JObj? && Lookup(tracksData.fields, "items").Some? && Lookup(tracksData.fields, "items").value.JArr? ==>
              r == TopAlbumsOf(Lookup(tracksData.fields, "items").value.items)
  {
    var items :- Get(tracksData, "items", JArr([]));
    var tracks :- Iter(items);
    TopAlbumsOf(tracks)
  }

  // ---------------------------------------------------------------------------
  // Relating the loop to the reference definitions

  /** The entries of the loop agree with the raw tracks, index by index */
  ghost predicate Aligned(tracks: seq<Json>, es: seq<Option<(Json, Occurrence)>>) {
    && |es| == |tracks|
    && (forall i :: 0 <= i < |es| ==> (es[i].Some? <==> Truthy(AlbumIdOf(tracks[i]))))
    && (forall i :: 0 <= i < |es| && es[i].Some? ==>
          es[i].value == (AlbumIdOf(tracks[i]), Occurrence(AlbumOf(tracks[i]), TrackRefOf(tracks[i]))))
  }

  lemma ReadTracksAligned(tracks: seq<Json>)
    requires ReadTracks(tracks).Ok?
    ensures Aligned(tracks, ReadTracks(tracks).value)
  {
    var es := ReadTracks(tracks).value;
    forall i | 0 <= i < |es| ensures (es[i].Some? <==> Truthy(AlbumIdOf(tracks[i]))) {
      assert ReadTrack(tracks[i]) == Ok(es[i]);
    }
  }

  lemma {:induction false} MembersAreTracksWithId(tracks: seq<Json>, es: seq<Option<(Json, Occurrence)>>, id: Json)
    requires Aligned(tracks, es)
    requires Truthy(id)
    ensures TrackRefs(MembersOf(es, id)) == TracksWithId(tracks, id)
    decreases |tracks|
  {
    if |tracks| > 0 {
      var n := |tracks| - 1;
      AlignedPrefix(tracks, es);
      MembersAreTracksWithId(tracks[..n], es[..n], id);
      EntryMatches(tracks, es, n, id);
      MembersStep(MembersOf(es[..n], id), TracksWithId(tracks[..n], id), es[n], tracks[n], id);
    }
  }

  /** One step of the induction above: an entry and its track extend both sides alike */
  lemma MembersStep(m: seq<Occurrence>, tw: seq<TrackRef>, e: Option<(Json, Occurrence)>, t: Json, id: Json)
    requires TrackRefs(m) == tw
    requires HasKey(e, id) <==> AlbumIdOf(t) == id
    requires HasKey(e, id) ==> e.value.1.track == TrackRefOf(t)
    ensures TrackRefs(m + (if HasKey(e, id) then [e.value.1] else []))
              == tw + (if AlbumIdOf(t) == id then [TrackRefOf(t)] else [])
  {
    if HasKey(e, id) {
      TrackRefsSnoc(m, e.value.1);
    } else {
      assert m + [] == m;
    }
  }

  lemma AlignedPrefix(tracks: seq<Json>, es: seq<Option<(Json, Occurrence)>>)
    requires Aligned(tracks, es) && |tracks| > 0
    ensures Aligned(tracks[..|tracks| - 1], es[..|es| - 1])
  {
  }

  lemma EntryMatches(tracks: seq<Json>, es: seq<Option<(Json, Occurrence)>>, n: nat, id: Json)
    requires Aligned(tracks, es) && n < |es| && Truthy(id)
    ensures HasKey(es[n], id) <==> AlbumIdOf(tracks[n]) == id
    ensures HasKey(es[n], id) ==> es[n].value.1.track == TrackRefOf(tracks[n])
  {
  }

  lemma TrackRefsSnoc(os: seq<Occurrence>, o: Occurrence)
    ensures TrackRefs(os + [o]) == TrackRefs(os) + [o.track]
  {
  }

  lemma OccursIffAlbumId(tracks: seq<Json>, es: seq<Option<(Json, Occurrence)>>, id: Json)
    requires Aligned(tracks, es)
    ensures Occurs(es, id) <==> id in AlbumIds(tracks)
  {
    if Occurs(es, id) {
      var i :| 0 <= i < |es| && HasKey(es[i], id);
      assert AlbumIdOf(tracks[i]) == id;
    }
    if id in AlbumIds(tracks) {
      var i :| 0 <= i < |tracks| && Truthy(AlbumIdOf(tracks[i])) && AlbumIdOf(tracks[i]) == id;
      assert HasKey(es[i], id);
    }
  }

  lemma FirstIndexSeenBefore(tracks: seq<Json>, es: seq<Option<(Json, Occurrence)>>, a: Json, b: Json)
    requires Aligned(tracks, es)
    requires Occurs(es, a) && Occurs(es, b)
    requires FirstIndex(es, a) < FirstIndex(es, b)
    ensures SeenBefore(tracks, a, b)
  {
    var p := FirstIndex(es, a);
    assert AlbumIdOf(tracks[p]) == a;
    assert Truthy(b) by {
      assert HasKey(es[FirstIndex(es, b)], b);
    }
    forall q | 0 <= q <= p ensures AlbumIdOf(tracks[q]) != b {
      assert !HasKey(es[q], b);
    }
  }

  /** What the loop built, before sorting: one summary per group */
  ghost predicate Summaries(tracks: seq<Json>, es: seq<Option<(Json, Occurrence)>>, summaries: seq<AlbumSummary>) {
    && Aligned(tracks, es)
    && IsGroupingOf(GroupBy(es), es)
    && |summaries| == |GroupBy(es)|
    && (forall i :: 0 <= i < |summaries| ==>
          summaries[i].id == GroupBy(es)[i].key && summaries[i].count == |GroupBy(es)[i].members|
          && summaries[i].tracks == TrackRefs(GroupBy(es)[i].members))
  }

  lemma TopAlbumsOfUnfold(tracks: seq<Json>, out: seq<AlbumSummary>)
    returns (es: seq<Option<(Json, Occurrence)>>, summaries: seq<AlbumSummary>)
    requires TopAlbumsOf(tracks) == Ok(out)
    ensures Summaries(tracks, es, summaries)
    ensures out == Top(summaries, Count, Limit)
    ensures ReadTracks(tracks) == Ok(es) && SummarizeAll(GroupBy(es)) == Ok(summaries)
  {
    es := ReadTracks(tracks).value;
    ReadTracksAligned(tracks);
    GroupByIsGrouping(es);
    GroupsNonEmpty(es);
    summaries := SummarizeAll(GroupBy(es)).value;
  }

  /** Each summary describes exactly the tracks that carry its id */
  lemma SummariesExact(tracks: seq<Json>, es: seq<Option<(Json, Occurrence)>>, summaries: seq<AlbumSummary>, i: nat)
    requires Summaries(tracks, es, summaries)
    requires i < |summaries|
    ensures Truthy(summaries[i].id)
    ensures summaries[i].id in AlbumIds(tracks)
    ensures summaries[i].tracks == TracksWithId(tracks, summaries[i].id)
    ensures summaries[i].count == |summaries[i].tracks| >= 1
  {
    var g := GroupBy(es)[i];
    assert Occurs(es, g.key);
    var p :| 0 <= p < |es| && HasKey(es[p], g.key);
    assert Truthy(g.key);
    OccursIffAlbumId(tracks, es, g.key);
    MembersAreTracksWithId(tracks, es, g.key);
    MembersOfPresent(es, g.key);
  }

  lemma SummariesDistinct(tracks: seq<Json>, es: seq<Option<(Json, Occurrence)>>, summaries: seq<AlbumSummary>)
    requires Summaries(tracks, es, summaries)
    ensures forall i, j :: 0 <= i < j < |summaries| ==> summaries[i].id != summaries[j].id
  {
  }

  // ---------------------------------------------------------------------------
  // The properties of the result

  /** Each album of the result is named by the tracks it lists and by no
      other: its track records are those of the input tracks carrying its id,
      in input order, and its count is their number (so at least one). Its id
      is truthy, and no album appears twice. */
  lemma TopAlbumsCountsTracks(tracks: seq<Json>, out: seq<AlbumSummary>)
    requires TopAlbumsOf(tracks) == Ok(out)
    ensures forall i :: 0 <= i < |out| ==>
              && Truthy(out[i].id)
              && out[i].tracks == TracksWithId(tracks, out[i].id)
              && out[i].count == |out[i].tracks| >= 1
    ensures forall i, j :: 0 <= i < j < |out| ==> out[i].id != out[j].id
  {
    var es, summaries := TopAlbumsOfUnfold(tracks, out);
    TopLength(summaries, Count, Limit);
    SummariesDistinct(tracks, es, summaries);
    forall i | 0 <= i < |out|
      ensures exists k :: 0 <= k < |summaries| && summaries[k] == out[i]
    {
      TopFromInput(summaries, Count, Limit, i);
    }
    forall i | 0 <= i < |out|
      ensures Truthy(out[i].id) && out[i].tracks == TracksWithId(tracks, out[i].id) && out[i].count == |out[i].tracks| >= 1
    {
      var k :| 0 <= k < |summaries| && summaries[k] == out[i];
      SummariesExact(tracks, es, summaries, k);
    }
    forall i, j | 0 <= i < j < |out| ensures out[i].id != out[j].id {
      TopKeepsDistinct(summaries, Count, Limit, IdOf, i, j);
    }
  }

  lemma TieSeenBefore(tracks: seq<Json>, es: seq<Option<(Json, Occurrence)>>, summaries: seq<AlbumSummary>, i: nat, j: nat)
    requires Summaries(tracks, es, summaries)
    requires i < j < |Top(summaries, Count, Limit)|
    requires Top(summaries, Count, Limit)[i].count == Top(summaries, Count, Limit)[j].count
    ensures SeenBefore(tracks, Top(summaries, Count, Limit)[i].id, Top(summaries, Count, Limit)[j].id)
  {
    var out := Top(summaries, Count, Limit);
    var gs := GroupBy(es);
    GroupOrderRanked(es, IdOf, summaries);
    TopKeepsTieOrder(summaries, Count, Limit, FirstRank(es, IdOf), i, j);
    TopFromInput(summaries, Count, Limit, i);
    TopFromInput(summaries, Count, Limit, j);
    var a :| 0 <= a < |summaries| && summaries[a] == out[i];
    var b :| 0 <= b < |summaries| && summaries[b] == out[j];
    assert Occurs(es, gs[a].key) && Occurs(es, gs[b].key);
    FirstIndexSeenBefore(tracks, es, out[i].id, out[j].id);
  }

  /** The result is ordered by count, largest first, and albums with equal
      counts keep the order in which the listing first mentions them. */
  lemma TopAlbumsOrdered(tracks: seq<Json>, out: seq<AlbumSummary>)
    requires TopAlbumsOf(tracks) == Ok(out)
    ensures forall i, j :: 0 <= i < j < |out| ==> out[i].count >= out[j].count
    ensures forall i, j :: 0 <= i < j < |out| && out[i].count == out[j].count ==>
              SeenBefore(tracks, out[i].id, out[j].id)
  {
    var es, summaries := TopAlbumsOfUnfold(tracks, out);
    TopSorted(summaries, Count, Limit);
    forall i, j | 0 <= i < j < |out| && out[i].count == out[j].count
      ensures SeenBefore(tracks, out[i].id, out[j].id)
    {
      TieSeenBefore(tracks, es, summaries, i, j);
    }
  }

  lemma {:induction false} SumOfCounts(gs: seq<Group<Json, Occurrence>>, summaries: seq<AlbumSummary>)
    requires |summaries| == |gs|
    requires forall i :: 0 <= i < |gs| ==> summaries[i].count == |gs[i].members|
    ensures SumOf(summaries, Count) == SumSizes(gs)
    decreases |gs|
  {
    if |gs| > 0 {
      var n := |gs| - 1;
      SumOfCounts(gs[..n], summaries[..n]);
      assert summaries == summaries[..n] + [summaries[n]];
      SumOfAppend(summaries[..n], [summaries[n]], Count);
    }
  }

  lemma KeySetIsAlbumIds(tracks: seq<Json>, es: seq<Option<(Json, Occurrence)>>)
    requires Aligned(tracks, es)
    requires IsGroupingOf(GroupBy(es), es)
    ensures KeySet(GroupBy(es)) == AlbumIds(tracks)
  {
    var gs := GroupBy(es);
    forall id | id in KeySet(gs) ensures id in AlbumIds(tracks) {
      var i :| 0 <= i < |gs| && gs[i].key == id;
      OccursIffAlbumId(tracks, es, id);
    }
    forall id | id in AlbumIds(tracks) ensures id in KeySet(gs) {
      OccursIffAlbumId(tracks, es, id);
      var i :| 0 <= i < |gs| && gs[i].key == id;
    }
  }

  /** At most ten albums: exactly min(10, number of distinct album ids) */
  lemma TopAlbumsSize(tracks: seq<Json>, out: seq<AlbumSummary>)
    requires TopAlbumsOf(tracks) == Ok(out)
    ensures |out| <= Limit
    ensures |out| == if |AlbumIds(tracks)| < Limit then |AlbumIds(tracks)| else Limit
  {
    var es, summaries := TopAlbumsOfUnfold(tracks, out);
    TopLength(summaries, Count, Limit);
    KeySetSize(GroupBy(es));
    KeySetIsAlbumIds(tracks, es);
  }

  /** The counts of the result add up to at most the number of tracks listed */
  lemma TopAlbumsCountSum(tracks: seq<Json>, out: seq<AlbumSummary>)
    requires TopAlbumsOf(tracks) == Ok(out)
    ensures SumOf(out, Count) <= |tracks|
  {
    var es, summaries := TopAlbumsOfUnfold(tracks, out);
    TopSum(summaries, Count, Limit);
    SumOfCounts(GroupBy(es), summaries);
    GroupByKeepsEveryValue(es);
  }

  /** The result keeps the largest albums: an album of the listing left out of
      the result has no more tracks than any album kept, and when it ties with
      a kept album, the kept one is mentioned first (the cut at ten keeps the
      first-seen of equal counts). */
  lemma TopAlbumsKeepsLargest(tracks: seq<Json>, out: seq<AlbumSummary>, id: Json)
    requires TopAlbumsOf(tracks) == Ok(out)
    requires id in AlbumIds(tracks)
    requires forall j :: 0 <= j < |out| ==> out[j].id != id
    ensures forall i :: 0 <= i < |out| ==> |TracksWithId(tracks, id)| <= out[i].count
    ensures forall i :: 0 <= i < |out| && |TracksWithId(tracks, id)| == out[i].count ==>
              SeenBefore(tracks, out[i].id, id)
  {
    var es, summaries := TopAlbumsOfUnfold(tracks, out);
    var gs := GroupBy(es);
    OccursIffAlbumId(tracks, es, id);
    var k :| 0 <= k < |gs| && gs[k].key == id;
    SummariesExact(tracks, es, summaries, k);
    assert summaries[k] !in out;
    forall i | 0 <= i < |out| ensures |TracksWithId(tracks, id)| <= out[i].count {
      TopLeftOutIsSmaller(summaries, Count, Limit, summaries[k], i);
    }
    forall i | 0 <= i < |out| && |TracksWithId(tracks, id)| == out[i].count
      ensures SeenBefore(tracks, out[i].id, id)
    {
      LeftOutTieSeenAfter(tracks, es, summaries, k, i);
    }
  }

  /** A summary cut off while tying with a kept one is first mentioned after it */
  lemma LeftOutTieSeenAfter(tracks: seq<Json>, es: seq<Option<(Json, Occurrence)>>, summaries: seq<AlbumSummary>, k: nat, i: nat)
    requires Summaries(tracks, es, summaries)
    requires k < |summaries| && summaries[k] !in Top(summaries, Count, Limit)
    requires i < |Top(summaries, Count, Limit)|
    requires summaries[k].count == Top(summaries, Count, Limit)[i].count
    ensures SeenBefore(tracks, Top(summaries, Count, Limit)[i].id, summaries[k].id)
  {
    var out := Top(summaries, Count, Limit);
    var gs := GroupBy(es);
    GroupOrderRanked(es, IdOf, summaries);
    TopLeftOutTie(summaries, Count, Limit, FirstRank(es, IdOf), summaries[k], i);
    TopFromInput(summaries, Count, Limit, i);
    var a :| 0 <= a < |summaries| && summaries[a] == out[i];
    assert Occurs(es, gs[a].key) && Occurs(es, gs[k].key);
    FirstIndexSeenBefore(tracks, es, out[i].id, summaries[k].id);
  }

  /** Each kept album's fields are read from the album of the first track that
      names it, as when the loop creates the album's entry. */
  lemma TopAlbumsReadsFirstTrack(tracks: seq<Json>, out: seq<AlbumSummary>, i: nat, p: nat)
    requires TopAlbumsOf(tracks) == Ok(out)
    requires i < |out| && p < |tracks| && AlbumIdOf(tracks[p]) == out[i].id
    requires forall q :: 0 <= q < p ==> AlbumIdOf(tracks[q]) != out[i].id
    ensures ReadAlbum(AlbumOf(tracks[p])) == Ok(out[i].info)
  {
    var es, summaries := TopAlbumsOfUnfold(tracks, out);
    TopFromInput(summaries, Count, Limit, i);
    var m :| 0 <= m < |summaries| && summaries[m] == out[i];
    SummaryReadsFirstTrack(tracks, es, summaries, m, p);
  }

  lemma SummaryReadsFirstTrack(tracks: seq<Json>, es: seq<Option<(Json, Occurrence)>>, summaries: seq<AlbumSummary>, m: nat, p: nat)
    requires ReadTracks(tracks) == Ok(es) && SummarizeAll(GroupBy(es)) == Ok(summaries)
    requires Summaries(tracks, es, summaries)
    requires m < |summaries| && p < |tracks| && AlbumIdOf(tracks[p]) == summaries[m].id
    requires forall q :: 0 <= q < p ==> AlbumIdOf(tracks[q]) != summaries[m].id
    ensures ReadAlbum(AlbumOf(tracks[p])) == Ok(summaries[m].info)
  {
    var gs := GroupBy(es);
    var id := gs[m].key;
    assert Summarize(gs[m]) == Ok(summaries[m]);
    assert Occurs(es, id);
    assert Truthy(id) by { assert HasKey(es[FirstIndex(es, id)], id); }
    assert HasKey(es[p], id);
    forall q | 0 <= q < p ensures !HasKey(es[q], id) {
      assert AlbumIdOf(tracks[q]) != id;
    }
    FirstIndexIs(es, id, p);
    MembersOfHead(es, id);
    assert gs[m].members[0] == Occurrence(AlbumOf(tracks[p]), TrackRefOf(tracks[p]));
  }

  /** A track whose album id is missing or falsy contributes nothing: adding it
      to the listing leaves the result unchanged. */
  lemma SkippedTrackChangesNothing(tracks: seq<Json>, t: Json)
    requires t.JObj? && AlbumOf(t).JObj?
    requires !Truthy(AlbumIdOf(t))
    ensures TopAlbumsOf(tracks + [t]) == TopAlbumsOf(tracks)
  {
    var ts := tracks + [t];
    assert ts[..|ts| - 1] == tracks;
    assert ReadTrack(t) == Ok(None);
    if ReadTracks(tracks).Ok? {
      var es := ReadTracks(tracks).value;
      assert ReadTracks(ts) == Ok(es + [None]);
      assert (es + [None])[..|es|] == es;
      assert GroupBy(es + [None]) == GroupBy(es);
    }
  }

  /** The listing is well formed when every track is an object with an album
      object (or none), a usable id, and album fields of the expected kinds. */
  ghost predicate WellShapedAlbum(album: Json) {
    && album.JObj?
    && (Truthy(FieldOf(album, "id")) ==> Hashable(FieldOf(album, "id")))
    && (Lookup(album.fields, "artists").Some? ==>
          && Lookup(album.fields, "artists").value.JArr?
          && forall a :: a in Lookup(album.fields, "artists").value.items ==> a.JObj?)
    && (Lookup(album.fields, "external_urls").Some? ==> Lookup(album.fields, "external_urls").value.JObj?)
  }

  ghost predicate WellShapedTrack(t: Json) {
    t.JObj? && WellShapedAlbum(AlbumOf(t))
  }

  lemma WellShapedGroup(tracks: seq<Json>, es: seq<Option<(Json, Occurrence)>>, i: nat)
    requires forall t :: 0 <= t < |tracks| ==> WellShapedTrack(tracks[t])
    requires Aligned(tracks, es)
    requires IsGroupingOf(GroupBy(es), es)
    requires i < |GroupBy(es)| && |GroupBy(es)[i].members| > 0
    ensures Summarize(GroupBy(es)[i]).Ok?
  {
    var g := GroupBy(es)[i];
    MembersOfFrom(es, g.key, 0);
    var p :| 0 <= p < |es| && HasKey(es[p], g.key) && es[p].value.1 == MembersOf(es, g.key)[0];
    assert g.members[0].album == AlbumOf(tracks[p]);
    assert WellShapedTrack(tracks[p]);
    ReadAlbumOk(AlbumOf(tracks[p]));
  }

  lemma ReadAlbumOk(album: Json)
    requires WellShapedAlbum(album)
    ensures ReadAlbum(album).Ok?
  {
    var artistList := GetField(album.fields, "artists", JArr([]));
    assert artistList.JArr?;
    assert forall i :: 0 <= i < |artistList.items| ==> artistList.items[i].JObj?;
  }

  /** A well-formed listing never makes the aggregation raise */
  lemma WellShapedSucceeds(tracks: seq<Json>)
    requires forall i :: 0 <= i < |tracks| ==> WellShapedTrack(tracks[i])
    ensures TopAlbumsOf(tracks).Ok?
  {
    assert ReadTracks(tracks).Ok?;
    var es := ReadTracks(tracks).value;
    ReadTracksAligned(tracks);
    GroupByIsGrouping(es);
    GroupsNonEmpty(es);
    forall i | 0 <= i < |GroupBy(es)| ensures Summarize(GroupBy(es)[i]).Ok? {
      WellShapedGroup(tracks, es, i);
    }
  }

  /** A track that is not an object makes the aggregation raise */
  lemma NonObjectTrackRaises(tracks: seq<Json>, i: nat)
    requires i < |tracks| && !tracks[i].JObj?
    ensures TopAlbumsOf(tracks) == Uncaught
  {
    assert !ReadTrack(tracks[i]).Ok?;
  }
}

=== FILE: top_genres.dfy ===
/** `get_top_genres`, the helper nested in the callback: every genre tag of
    every artist of a top-artists listing is counted in an insertion-ordered
    map; the (genre, count) pairs are then sorted stably by count, descending,
    and the first ten kept, as an ordered mapping.

    The reference definitions (`GenreListOf`, `AllTags`, `TagCount`,
    `GenreSet`, `TagSeenBefore`) read the artists directly; the lemmas relate
    the counting loop to them.
 */
module TopGenres {
  import opened Results
  import opened Json
  import opened OrderedGroups
  import opened StableSort

  /** How many genres the mapping keeps */
  const Limit: nat := 10

  /** One entry of the result mapping */
  datatype GenreCount = GenreCount(genre: Json, count: nat)

  /** The sort key */
  function CountOf(g: GenreCount): int {
    g.count
  }

  /** The key an entry is filed under */
  function GenreOf(g: GenreCount): Json {
    g.genre
  }

  /** `for genre in artist.get('genres', [])`: the tags an artist yields */
  function GenresOf(artist: Json): (r: Result<seq<Json>>)
    ensures r.Ok? ==> artist.JObj?
    ensures artist.JObj? && Lookup(artist.fields, "genres").None? ==> r == Ok([])
    ensures artist.JObj? && Lookup(artist.fields, "genres") == Some(JNull) ==> r == Uncaught
    ensures artist.JObj? && Lookup(artist.fields, "genres").Some? ==> r == Iter(Lookup(artist.fields, "genres").value)
  {
    var list :- Get(artist, "genres", JArr([]));
    Iter(list)
  }

  /** The tags of one artist, none when reading them raises */
  ghost function GenreListOf(artist: Json): seq<Json> {
    if GenresOf(artist).Ok? then GenresOf(artist).value else []
  }

  /** Every tag of every artist, in listing order */
  ghost function AllTags(artists: seq<Json>): seq<Json>
    decreases |artists|
  {
    if |artists| == 0 then []
    else AllTags(artists[..|artists| - 1]) + GenreListOf(artists[|artists| - 1])
  }

  /** How often genre `g` is named, summed over the artists */
  ghost function TagCount(artists: seq<Json>, g: Json): nat
    decreases |artists|
  {
    if |artists| == 0 then 0
    else TagCount(artists[..|artists| - 1], g) + multiset(GenreListOf(artists[|artists| - 1]))[g]
  }

  /** The distinct genres the listing names */
  ghost function GenreSet(artists: seq<Json>): set<Json> {
    set i | 0 <= i < |AllTags(artists)| :: AllTags(artists)[i]
  }

  /** In the tag sequence, `a` is named before `b` is first named */
  ghost predicate TagSeenBefore(tags: seq<Json>, a: Json, b: Json) {
    exists p :: 0 <= p < |tags| && tags[p] == a && forall q :: 0 <= q <= p ==> tags[q] != b
  }

  /** The nested loop's traversal: the tags of every artist, one artist after another */
  function Tags(artists: seq<Json>): (r: Result<seq<Json>>)
    ensures r.Ok? ==> r.value == AllTags(artists)
    decreases |artists|
  {
    if |artists| == 0 then Ok([])
    else
      var init :- Tags(artists[..|artists| - 1]);
      var last :- GenresOf(artists[|artists| - 1]);
      Ok(init + last)
  }

  /** `genre_count.get(genre, 0)`: a tag that cannot be a dict key raises */
  function ReadTag(g: Json): (r: Result<Option<(Json, ())>>)
    ensures r.Ok? <==> Hashable(g)
    ensures r.Ok? ==> r.value == Some((g, ()))
  {
    if Hashable(g) then Ok(Some((g, ()))) else Uncaught
  }

  /** The map's `(genre, count)` items, in insertion order */
  function Tally(gs: seq<Group<Json, ()>>): (r: seq<GenreCount>)
    ensures |r| == |gs|
    ensures forall i :: 0 <= i < |gs| ==> r[i] == GenreCount(gs[i].key, |gs[i].members|)
  {
    seq(|gs|, i requires 0 <= i < |gs| => GenreCount(gs[i].key, |gs[i].members|))
  }

  /** The counting over the list of artists: at most ten genres */
  function TopGenresOf(artists: seq<Json>): (r: Result<seq<GenreCount>>)
    ensures r.Ok? ==> |r.value| <= Limit
  {
    var tags :- Tags(artists);
    var entries :- MapAll(tags, ReadTag);
    Ok(Top(Tally(GroupBy(entries)), CountOf, Limit))
  }

  /** `get_top_genres(artists_data)`: the artists are `artists_data.get('items', [])` */
  function GetTopGenres(artistsData: Json): (r: Result<seq<GenreCount>>)
    ensures !artistsData.JObj? ==> r == Uncaught
    ensures artistsData.JObj? && Lookup(artistsData.fields, "items").None? ==> r == Ok([])
    ensures artistsData.JObj? && Lookup(artistsData.fields, "items") == Some(JArr([])) ==> r == Ok([])
    ensures artistsData.JObj? && Lookup(artistsData.fields, "items") == Some(JNull) ==> r == Uncaught
    ensures artistsData.JObj? && Lookup(artistsData.fields, "items").Some? && Lookup(artistsData.fields, "items").value.JArr? ==>
              r == TopGenresOf(Lookup(artistsData.fields, "items").value.items)
  {
    var items :- Get(artistsData, "items", JArr([]));
    var artists :- Iter(items);
    TopGenresOf(artists)
  }

  // ---------------------------------------------------------------------------
  // Relating the loop to the reference definitions

  /** The traversal raises exactly when some artist's tags cannot be read,
      and otherwise yields every tag in listing order */
  lemma TagsAreAllTags(artists: seq<Json>)
    ensures Tags(artists).Ok? <==> forall i :: 0 <= i < |artists| ==> GenresOf(artists[i]).Ok?
    ensures Tags(artists).Ok? ==> Tags(artists).value == AllTags(artists)
  {
    TagsRaiseOnlyOnAnArtist(artists);
  }

  /** The traversal raises exactly when one artist's tags cannot be read */
  lemma {:induction false} TagsRaiseOnlyOnAnArtist(artists: seq<Json>)
    ensures Tags(artists).Ok? <==> AllReadable(artists)
    decreases |artists|
  {
    if |artists| > 0 {
      var n := |artists| - 1;
      TagsRaiseOnlyOnAnArtist(artists[..n]);
      TagsStep(artists);
      ReadableStep(artists);
    }
  }

  /** One step of the traversal: the last artist is read after all the others */
  lemma TagsStep(artists: seq<Json>)
    requires |artists| > 0
    ensures Tags(artists).Ok? <==> Tags(artists[..|artists| - 1]).Ok? && GenresOf(artists[|artists| - 1]).Ok?
  {
  }

  /** Every artist's tags can be read */
  ghost predicate AllReadable(artists: seq<Json>) {
    forall i :: 0 <= i < |artists| ==> GenresOf(artists[i]).Ok?
  }

  /** Every artist is readable exactly when all but the last are and the last is */
  lemma ReadableStep(artists: seq<Json>)
    requires |artists| > 0
    ensures AllReadable(artists) <==> AllReadable(artists[..|artists| - 1]) && GenresOf(artists[|artists| - 1]).Ok?
  {
    var pre := artists[..|artists| - 1];
    assert forall i :: 0 <= i < |pre| ==> pre[i] == artists[i];
  }

  /** The loop's entries are the tags, one entry per tag */
  ghost predicate TagEntries(tags: seq<Json>, es: seq<Option<(Json, ())>>) {
    |es| == |tags| && forall i :: 0 <= i < |es| ==> es[i] == Some((tags[i], ()))
  }

  /** Counting the tags artist by artist agrees with counting them in the flat sequence */
  lemma {:induction false} TagCountIsMultiplicity(artists: seq<Json>, g: Json)
    ensures multiset(AllTags(artists))[g] == TagCount(artists, g)
    decreases |artists|
  {
    if |artists| > 0 {
      TagCountIsMultiplicity(artists[..|artists| - 1], g);
    }
  }

  /** A genre's group holds one value per time the genre is named */
  lemma {:induction false} MembersCountTags(tags: seq<Json>, es: seq<Option<(Json, ())>>, g: Json)
    requires TagEntries(tags, es)
    ensures |MembersOf(es, g)| == multiset(tags)[g]
    decreases |tags|
  {
    if |tags| > 0 {
      var n := |tags| - 1;
      TagEntriesPrefix(tags, es);
      MembersCountTags(tags[..n], es[..n], g);
      assert tags == tags[..n] + [tags[n]];
      assert multiset(tags) == multiset(tags[..n]) + multiset{tags[n]};
      assert HasKey(es[n], g) <==> tags[n] == g;
      assert |MembersOf(es, g)| == |MembersOf(es[..n], g)| + (if HasKey(es[n], g) then 1 else 0);
    }
  }

  lemma TagEntriesPrefix(tags: seq<Json>, es: seq<Option<(Json, ())>>)
    requires TagEntries(tags, es) && |tags| > 0
    ensures TagEntries(tags[..|tags| - 1], es[..|es| - 1])
  {
  }

  lemma OccursIffNamed(tags: seq<Json>, es: seq<Option<(Json, ())>>, g: Json)
    requires TagEntries(tags, es)
    ensures Occurs(es, g) <==> g in tags
  {
    if g in tags {
      var i :| 0 <= i < |tags| && tags[i] == g;
      assert HasKey(es[i], g);
    }
  }

  lemma FirstIndexTagSeenBefore(tags: seq<Json>, es: seq<Option<(Json, ())>>, a: Json, b: Json)
    requires TagEntries(tags, es)
    requires Occurs(es, a) && Occurs(es, b)
    requires FirstIndex(es, a) < FirstIndex(es, b)
    ensures TagSeenBefore(tags, a, b)
  {
    var p := FirstIndex(es, a);
    forall q | 0 <= q <= p ensures tags[q] != b {
      assert !HasKey(es[q], b);
    }
  }

  /** What the loop built, before sorting */
  ghost predicate Counted(artists: seq<Json>, es: seq<Option<(Json, ())>>, items: seq<GenreCount>) {
    && TagEntries(AllTags(artists), es)
    && IsGroupingOf(GroupBy(es), es)
    && items == Tally(GroupBy(es))
  }

  lemma TopGenresOfUnfold(artists: seq<Json>, out: seq<GenreCount>)
    returns (es: seq<Option<(Json, ())>>, items: seq<GenreCount>)
    requires TopGenresOf(artists) == Ok(out)
    ensures Counted(artists, es, items)
    ensures out == Top(items, CountOf, Limit)
  {
    var tags := Tags(artists).value;
    TagsAreAllTags(artists);
    es := MapAll(tags, ReadTag).value;
    GroupByIsGrouping(es);
    items := Tally(GroupBy(es));
  }

  /** Each item of the map pairs a named genre with the number of times it is named */
  lemma CountedExact(artists: seq<Json>, es: seq<Option<(Json, ())>>, items: seq<GenreCount>, i: nat)
    requires Counted(artists, es, items)
    requires i < |items|
    ensures items[i].genre in GenreSet(artists)
    ensures items[i].count == TagCount(artists, items[i].genre) >= 1
  {
    var tags := AllTags(artists);
    var g := GroupBy(es)[i].key;
    OccursIffNamed(tags, es, g);
    MembersCountTags(tags, es, g);
    TagCountIsMultiplicity(artists, g);
    var p :| 0 <= p < |tags| && tags[p] == g;
  }

  lemma KeptExact(artists: seq<Json>, es: seq<Option<(Json, ())>>, items: seq<GenreCount>, i: nat)
    requires Counted(artists, es, items)
    requires i < |Top(items, CountOf, Limit)|
    ensures Top(items, CountOf, Limit)[i].genre in GenreSet(artists)
    ensures Top(items, CountOf, Limit)[i].count == TagCount(artists, Top(items, CountOf, Limit)[i].genre) >= 1
  {
    TopFromInput(items, CountOf, Limit, i);
    var k :| 0 <= k < |items| && items[k] == Top(items, CountOf, Limit)[i];
    CountedExact(artists, es, items, k);
  }

  // ---------------------------------------------------------------------------
  // The properties of the result

  /** Every entry is a genre the listing names, with its full count (so at
      least one), and no genre appears twice. */
  lemma TopGenresCounts(artists: seq<Json>, out: seq<GenreCount>)
    requires TopGenresOf(artists) == Ok(out)
    ensures forall i :: 0 <= i < |out| ==>
              out[i].genre in GenreSet(artists) && out[i].count == TagCount(artists, out[i].genre) >= 1
    ensures forall i, j :: 0 <= i < j < |out| ==> out[i].genre != out[j].genre
  {
    var es, items := TopGenresOfUnfold(artists, out);
    forall i | 0 <= i < |out|
      ensures out[i].genre in GenreSet(artists) && out[i].count == TagCount(artists, out[i].genre) >= 1
    {
      KeptExact(artists, es, items, i);
    }
    forall i, j | 0 <= i < j < |out| ensures out[i].genre != out[j].genre {
      TopKeepsDistinct(items, CountOf, Limit, GenreOf, i, j);
    }
  }

  lemma KeySetIsGenreSet(artists: seq<Json>, es: seq<Option<(Json, ())>>)
    requires TagEntries(AllTags(artists), es)
    requires IsGroupingOf(GroupBy(es), es)
    ensures KeySet(GroupBy(es)) == GenreSet(artists)
  {
    var gs := GroupBy(es);
    var tags := AllTags(artists);
    forall g | g in KeySet(gs) ensures g in GenreSet(artists) {
      var i :| 0 <= i < |gs| && gs[i].key == g;
      OccursIffNamed(tags, es, g);
      var p :| 0 <= p < |tags| && tags[p] == g;
    }
    forall g | g in GenreSet(artists) ensures g in KeySet(gs) {
      OccursIffNamed(tags, es, g);
      var i :| 0 <= i < |gs| && gs[i].key == g;
    }
  }

  /** At most ten genres: exactly min(10, number of distinct genres named) */
  lemma TopGenresSize(artists: seq<Json>, out: seq<GenreCount>)
    requires TopGenresOf(artists) == Ok(out)
    ensures |out| <= Limit
    ensures |out| == if |GenreSet(artists)| < Limit then |GenreSet(artists)| else Limit
  {
    var es, items := TopGenresOfUnfold(artists, out);
    TopLength(items, CountOf, Limit);
    KeySetSize(GroupBy(es));
    KeySetIsGenreSet(artists, es);
  }


  lemma TieSeenBefore(artists: seq<Json>, es: seq<Option<(Json, ())>>, items: seq<GenreCount>, i: nat, j: nat)
    requires Counted(artists, es, items)
    requires i < j < |Top(items, CountOf, Limit)|
    requires Top(items, CountOf, Limit)[i].count == Top(items, CountOf, Limit)[j].count
    ensures TagSeenBefore(AllTags(artists), Top(items, CountOf, Limit)[i].genre, Top(items, CountOf, Limit)[j].genre)
  {
    var out := Top(items, CountOf, Limit);
    var gs := GroupBy(es);
    GroupOrderRanked(es, GenreOf, items);
    TopKeepsTieOrder(items, CountOf, Limit, FirstRank(es, GenreOf), i, j);
    TopFromInput(items, CountOf, Limit, i);
    TopFromInput(items, CountOf, Limit, j);
    var a :| 0 <= a < |items| && items[a] == out[i];
    var b :| 0 <= b < |items| && items[b] == out[j];
    assert Occurs(es, gs[a].key) && Occurs(es, gs[b].key);
    FirstIndexTagSeenBefore(AllTags(artists), es, out[i].genre, out[j].genre);
  }

  /** The mapping is ordered by count, largest first, and genres with equal
      counts keep the order in which the listing first names them. */
  lemma TopGenresOrdered(artists: seq<Json>, out: seq<GenreCount>)
    requires TopGenresOf(artists) == Ok(out)
    ensures forall i, j :: 0 <= i < j < |out| ==> out[i].count >= out[j].count
    ensures forall i, j :: 0 <= i < j < |out| && out[i].count == out[j].count ==>
              TagSeenBefore(AllTags(artists), out[i].genre, out[j].genre)
  {
    var es, items := TopGenresOfUnfold(artists, out);
    TopSorted(items, CountOf, Limit);
    forall i, j | 0 <= i < j < |out| && out[i].count == out[j].count
      ensures TagSeenBefore(AllTags(artists), out[i].genre, out[j].genre)
    {
      TieSeenBefore(artists, es, items, i, j);
    }
  }

  /** The mapping keeps the most frequent genres: a genre of the listing left
      out is named no more often than any genre kept, and when it ties with a
      kept genre, the kept one is named first (the cut at ten keeps the
      first-named of equal counts). */
  lemma TopGenresKeepsLargest(artists: seq<Json>, out: seq<GenreCount>, g: Json)
    requires TopGenresOf(artists) == Ok(out)
    requires g in GenreSet(artists)
    requires forall j :: 0 <= j < |out| ==> out[j].genre != g
    ensures forall i :: 0 <= i < |out| ==> TagCount(artists, g) <= out[i].count
    ensures forall i :: 0 <= i < |out| && TagCount(artists, g) == out[i].count ==>
              TagSeenBefore(AllTags(artists), out[i].genre, g)
  {
    var es, items := TopGenresOfUnfold(artists, out);
    var gs := GroupBy(es);
    KeySetIsGenreSet(artists, es);
    var k :| 0 <= k < |gs| && gs[k].key == g;
    CountedExact(artists, es, items, k);
    assert items[k] !in out;
    forall i | 0 <= i < |out| ensures TagCount(artists, g) <= out[i].count {
      TopLeftOutIsSmaller(items, CountOf, Limit, items[k], i);
    }
    forall i | 0 <= i < |out| && TagCount(artists, g) == out[i].count
      ensures TagSeenBefore(AllTags(artists), out[i].genre, g)
    {
      LeftOutTieSeenAfter(artists, es, items, k, i);
    }
  }

  /** A genre cut off while tying with a kept one is first named after it */
  lemma LeftOutTieSeenAfter(artists: seq<Json>, es: seq<Option<(Json, ())>>, items: seq<GenreCount>, k: nat, i: nat)
    requires Counted(artists, es, items)
    requires k < |items| && items[k] !in Top(items, CountOf, Limit)
    requires i < |Top(items, CountOf, Limit)|
    requires items[k].count == Top(items, CountOf, Limit)[i].count
    ensures TagSeenBefore(AllTags(artists), Top(items, CountOf, Limit)[i].genre, items[k].genre)
  {
    var out := Top(items, CountOf, Limit);
    var gs := GroupBy(es);
    GroupOrderRanked(es, GenreOf, items);
    TopLeftOutTie(items, CountOf, Limit, FirstRank(es, GenreOf), items[k], i);
    TopFromInput(items, CountOf, Limit, i);
    var a :| 0 <= a < |items| && items[a] == out[i];
    assert Occurs(es, gs[a].key) && Occurs(es, gs[k].key);
    FirstIndexTagSeenBefore(AllTags(artists), es, out[i].genre, items[k].genre);
  }

  /** An artist without genres (no `genres` field, or an empty list) changes nothing */
  lemma GenrelessArtistChangesNothing(artists: seq<Json>, a: Json)
    requires a.JObj?
    requires Lookup(a.fields, "genres").None? || Lookup(a.fields, "genres") == Some(JArr([]))
    ensures TopGenresOf(artists + [a]) == TopGenresOf(artists)
  {
    var xs := artists + [a];
    assert xs[..|xs| - 1] == artists;
    assert GenresOf(a) == Ok([]);
    TagsAreAllTags(artists);
    if Tags(artists).Ok? {
      assert Tags(xs) == Ok(Tags(artists).value + []);
      assert Tags(artists).value + [] == Tags(artists).value;
    }
  }

  /** The counting raises exactly when some artist is not an object, some
      `genres` value cannot be iterated, or some tag cannot be a dict key. */
  lemma TopGenresOfRaises(artists: seq<Json>)
    ensures TopGenresOf(artists).Ok? <==>
              && (forall i :: 0 <= i < |artists| ==> GenresOf(artists[i]).Ok?)
              && (forall i :: 0 <= i < |AllTags(artists)| ==> Hashable(AllTags(artists)[i]))
  {
    TagsAreAllTags(artists);
    if Tags(artists).Ok? {
      var tags := Tags(artists).value;
      assert forall i :: 0 <= i < |tags| ==> (ReadTag(tags[i]).Ok? <==> Hashable(tags[i]));
    }
  }


  const Pop: Json := JStr("pop")
  const Rock: Json := JStr("rock")

  /** The two artists of the worked example */
  const PopRockArtist: Json := JObj([("genres", JArr([Pop, Rock]))])
  const RockArtist: Json := JObj([("genres", JArr([Rock]))])

  /** The loop's entries for their tags */
  const ExampleEntryList: seq<Option<(Json, ())>> := [Some((Pop, ())), Some((Rock, ())), Some((Rock, ()))]

  lemma ExampleTags()
    ensures Tags([PopRockArtist, RockArtist]) == Ok([Pop, Rock, Rock])
  {
    var a, b := PopRockArtist, RockArtist;
    assert [a, b][..1] == [a];
    assert [a][..0] == [];
    assert GenresOf(a) == Ok([Pop, Rock]);
    assert GenresOf(b) == Ok([Rock]);
    assert [] + [Pop, Rock] == [Pop, Rock];
    assert Tags([a]) == Ok([Pop, Rock]);
    assert [Pop, Rock] + [Rock] == [Pop, Rock, Rock];
  }

  lemma ExampleEntries()
    ensures MapAll([Pop, Rock, Rock], ReadTag) == Ok(ExampleEntryList)
  {
    var tags := [Pop, Rock, Rock];
    var es := ExampleEntryList;
    forall i | 0 <= i < 3 ensures ReadTag(tags[i]) == Ok(es[i]) {
    }
    var r := MapAll(tags, ReadTag);
    assert r.Ok?;
    assert |r.value| == 3;
    forall i | 0 <= i < 3 ensures r.value[i] == es[i] {
      assert ReadTag(tags[i]) == Ok(r.value[i]);
    }
    assert r.value == es;
  }

  lemma ExampleGroups()
    ensures GroupBy(ExampleEntryList) == [Group(Pop, [()]), Group(Rock, [(), ()])]
  {
    var e1, e2 := Some((Pop, ())), Some((Rock, ()));
    var g1 := [Group(Pop, [()])];
    var g2 := [Group(Pop, [()]), Group(Rock, [()])];
    GroupBySnoc([], Pop, ());
    assert [] + [e1] == [e1];
    assert GroupBy([e1]) == g1;
    GroupBySnoc([e1], Rock, ());
    assert IndexOf(g1, Rock) == -1;
    assert GroupBy([e1, e2]) == g2;
    GroupBySnoc([e1, e2], Rock, ());
    assert [e1, e2] + [e2] == ExampleEntryList;
    assert IndexOf(g2, Rock) == 1;
    assert [()] + [()] == [(), ()];
    assert Add(g2, Rock, ()) == g2[1 := Group(Rock, [(), ()])];
  }

  lemma ExampleSort()
    ensures Top([GenreCount(Pop, 1), GenreCount(Rock, 2)], CountOf, Limit) == [GenreCount(Rock, 2), GenreCount(Pop, 1)]
  {
    var items := [GenreCount(Pop, 1), GenreCount(Rock, 2)];
    assert items[..1] == [items[0]];
    assert [items[0]][..0] == [];
    assert SortDesc(items[..1], CountOf) == [items[0]];
    assert SortDesc(items, CountOf) == InsertDesc([items[0]], items[1], CountOf);
  }

  /** Two artists tagged `pop, rock` and `rock`: rock is named twice and comes first */
  lemma TwoArtistsExample()
    ensures TopGenresOf([JObj([("genres", JArr([Pop, Rock]))]), JObj([("genres", JArr([Rock]))])])
            == Ok([GenreCount(Rock, 2), GenreCount(Pop, 1)])
  {
    ExampleTags();
    ExampleEntries();
    ExampleGroups();
    var items := Tally([Group(Pop, [()]), Group(Rock, [(), ()])]);
    assert items == [GenreCount(Pop, 1), GenreCount(Rock, 2)];
    ExampleSort();
  }
}
